=== FILE: README.md ===
# zkvote core in Dafny

This project models the core of zkvote, a small voting server with a browser client.

- **Server start-up.** The server reads a voting configuration, loads a list of eligible voter ids and serves five voting endpoints.
- **Plaintext mode.** Each eligible voter records one option. An optional per-IP-address block applies. A tally counts the options.
- **Zero-knowledge (ZK) mode.** A voter registers a commitment (a hash of a secret) and then submits a proof. Its five public signals carry a vote commitment, a nullifier hash, a validity flag, the option count and the commitment. The circuit path accepts a ballot once per nullifier hash; the simplified fallback does not check it.
- **Client.** The client builds those proofs: a real groth16 proof when the prover is available, and a mock proof otherwise.

The model is organised as follows:

- `js_text.dfy` (`JsText`): JavaScript strings as sequences of UTF-16 code units. It covers `Number.prototype.toString` for integers, `split`, `join` and `trim`, with their round trips.
- `hashing.dfy` (`Hashing`): the development hash `simpleHash` that the server and the client share. `ComputeSimpleHash` is the loop exactly as written: shift, subtract, add, then `hash & hash`. It is proved equal to the 32-bit reduction of the polynomial hash `sum s[i] * 31^(n-1-i)`.
- `zk_vote_service.dfy` (`ZkVoteService`): the registry of commitments, the set of consumed nullifier hashes and the ballot list.
  - The circuit path of `verifyVoteProof` runs its checks in this order: registration, commitment, nullifier reuse, proof, validity flag.
  - The simplified path is taken when the verification key is missing or unreadable, or when the verifier throws.
- `vote_service.dfy` (`VoteService`): the plaintext tally and `getResults`.
- `server.dfy` (`Server`): the decisions in the server's entry file.
  - Start-up: the configuration answers and the voter list.
  - The guard sequence of each endpoint.
  - A request loop (`Handle`, `Run`) with the invariants that every run of requests preserves.
- `client.dfy` (`Client`): the client's commitment, mock proof and real-proof attempt.
- `client_server.dfy` (`ClientServer`): how the client's proofs fare against the server's checks.

Every operation is a pure function from one state value to the next. Outside effects become parameters:

- the clock (`Date.now()`) is a parameter;
- the random draw of a nullifier is a parameter;
- whether the verification key file exists and parses, and what `groth16.verify` answers, are given as a `Circuit` value;
- `groth16.fullProve` is a function parameter.

A request field that may be `undefined` is a `Maybe`. JavaScript truthiness of a string (defined and not empty) is `Truthy`.

Behaviours of the code worth knowing, all modelled as written:

- **Options are not checked for distinctness.** The option list is not required to hold distinct entries. Only empty entries are dropped, and fewer than two remaining entries aborts start-up.
- **Re-registration is refused only by the endpoint.** The ZK service's `registerVoter` replaces an existing record (`ReRegistrationResetsVoter`). Only `/api/register-voter` refuses a voter who is already registered.
- **ZK mode cannot be switched on.** `askVotingConfig` sets `useZeroKnowledge` to false and nothing sets it to true. After start-up, every ZK registration and ZK vote is therefore refused (`ZkEndpointsUnreachable`). The ZK branches are still modelled, on states where the flag is true.
- **The circuit path does not stop a second ballot from the same voter.** It checks only whether the proof's nullifier hash has been used before, not the voter's own record. A voter who has voted can cast another ballot with a fresh nullifier (`CircuitAcceptsVoterWhoVoted`, `CircuitPathAcceptsSecondDraw`).
- **The simplified path may reuse a consumed nullifier.** Without a verification key, the nullifier is `simpleHash(voterId + Date.now())` and is never checked against the consumed set. Another voter's id and time can spell the same string ("x1" at 1 and "x" at 11), or the 32-bit hash can collide; the ballot is then accepted anyway, and two ballots carry one nullifier (`SimplifiedMayReuseNullifier`).
- **A ballot with an empty nullifier leaves the voter unmarked.** `hasVoterVoted` tests the stored nullifier hash for truthiness. A circuit-path ballot whose nullifier signal is `""` is accepted and recorded, but the voter still counts as not having voted, and `/api/verify` reports the same (`EmptyNullifierLeavesVoterUnmarked`).
- **A fractional option is stored but never counted.** The `/api/vote` guard accepts a fractional option inside the range. `getResults` counts it in `total` but in no entry of `counts` (`FractionalOptionUncounted`).

## Model

| member | source | states |
|---|---|---|
| JsText.Decimal | 2025/hackaton-projects/zkvote/server/src/services/zkVoteService.ts:43 | `toString` of a non-negative integer is a canonical numeral with no leading zero, and reading it back gives the integer |
| JsText.DecimalInt | 2025/hackaton-projects/zkvote/client/src/services/voteService.ts:49 | an integer in a template string is its numeral, with a leading '-' when negative, and it reads back to the integer |
| JsText.Concat | 2025/hackaton-projects/zkvote/server/src/services/zkVoteService.ts:150 | `join('')` of no pieces is empty and of one piece is that piece |
| JsText.ConcatAppend | 2025/hackaton-projects/zkvote/server/src/services/zkVoteService.ts:150 | `join('')` of two lists run together is the two joins run together, which with the empty and one-piece cases fixes the result |
| JsText.Split | 2025/hackaton-projects/zkvote/server/src/index.ts:45 | `split(',')` yields at least one piece and no piece contains the separator |
| JsText.JoinSplit | 2025/hackaton-projects/zkvote/server/src/index.ts:45 | joining the pieces of a split with the separator gives the original answer back |
| JsText.SplitJoin | 2025/hackaton-projects/zkvote/server/src/index.ts:45 | splitting a join of separator-free pieces gives exactly those pieces back |
| JsText.SplitAppend | 2025/hackaton-projects/zkvote/server/src/index.ts:45 | splitting at a separator splits the two sides independently: the pieces of `a,b` are those of `a` followed by those of `b` |
| JsText.TrimStart | 2025/hackaton-projects/zkvote/server/src/index.ts:45 | the front-trimmed string is a suffix of the input, everything cut from the front is white space, and it does not start with white space |
| JsText.TrimEnd | 2025/hackaton-projects/zkvote/server/src/index.ts:45 | the back-trimmed string is a prefix of the input, everything cut from the back is white space, and it does not end with white space |
| JsText.Trim | 2025/hackaton-projects/zkvote/server/src/index.ts:39-51 | `trim()` leaves no white space at either end; the result is empty exactly when the input is all white space; an already-trimmed string is unchanged |
| JsText.TrimIsInfix | 2025/hackaton-projects/zkvote/server/src/index.ts:39-51 | `trim()` returns a contiguous part of its input, and everything it cuts off at either end is white space |
| JsText.TrimKeepsAbsent | 2025/hackaton-projects/zkvote/server/src/index.ts:45 | trimming an option never brings in a comma that was not in it |
| Hashing.ToInt32 | 2025/hackaton-projects/zkvote/server/src/services/zkVoteService.ts:41 | `hash & hash` yields the signed 32-bit value congruent to `hash` modulo 2^32 |
| Hashing.Hash32 | 2025/hackaton-projects/zkvote/server/src/services/zkVoteService.ts:37-42 | the rolling hash stays in the signed 32-bit range after every code unit |
| Hashing.LoopStepIsModular | 2025/hackaton-projects/zkvote/server/src/services/zkVoteService.ts:40-41 | the loop body as written, `((hash << 5) - hash) + char` reduced by `hash & hash`, is multiplication by 31 plus the code unit, modulo 2^32 |
| Hashing.Hash32IsReducedPolynomial | 2025/hackaton-projects/zkvote/server/src/services/zkVoteService.ts:37-42 | the loop's result is the polynomial hash of the code units reduced to signed 32 bits |
| Hashing.SimpleHash | 2025/hackaton-projects/zkvote/server/src/services/zkVoteService.ts:36-44 | `simpleHash` returns a canonical decimal numeral of at most 2^31: the absolute value of the reduced polynomial hash; the empty string hashes to "0" |
| Hashing.ComputeSimpleHash | 2025/hackaton-projects/zkvote/client/src/services/voteService.ts:17-25 | the literal shift-and-mask loop computes the same string as the reference hash |
| ZkVoteService.RegisterVoter | 2025/hackaton-projects/zkvote/server/src/services/zkVoteService.ts:47-54 | registration stores `simpleHash(voterSecret)` for that voter, with no ballot recorded, and returns it; other voters, consumed nullifiers and ballots are left alone |
| ZkVoteService.IsVoterRegistered | 2025/hackaton-projects/zkvote/server/src/services/zkVoteService.ts:57-59 | in a consistent service, a voter is registered exactly when some stored record names that voter |
| ZkVoteService.HasVoterVoted | 2025/hackaton-projects/zkvote/server/src/services/zkVoteService.ts:62-65 | a voter reported as having voted is a registered voter |
| ZkVoteService.VotedVoterHoldsConsumedNullifier | 2025/hackaton-projects/zkvote/server/src/services/zkVoteService.ts:62-65 | a voter who has voted is registered, and the nullifier on their record has been consumed |
| ZkVoteService.RecordVote | 2025/hackaton-projects/zkvote/server/src/services/zkVoteService.ts:112-120 | recording a ballot keeps every handed-out nullifier inside the consumed set |
| ZkVoteService.VerifyVoteProof | 2025/hackaton-projects/zkvote/server/src/services/zkVoteService.ts:68-128 | a rejection changes nothing; an acceptance requires a registered voter and appends exactly one ballot, whose nullifier is added to the consumed set and attached to that voter's record alone (only the circuit path requires it to be unused before) |
| ZkVoteService.CircuitVerification | 2025/hackaton-projects/zkvote/server/src/services/zkVoteService.ts:83-122 | the circuit path throws into the fallback exactly when the verifier throws after the registration, commitment and reuse checks pass; its rejections change nothing; it accepts only with a valid proof, an unused nullifier and a validity signal of "1", recording signals 0 and 1 |
| ZkVoteService.SimplifiedVerification | 2025/hackaton-projects/zkvote/server/src/services/zkVoteService.ts:131-163 | the simplified path accepts exactly a registered voter who has not voted, then records `simpleHash` of the joined signals and of id plus clock; its rejections change nothing |
| ZkVoteService.GetVoteStats | 2025/hackaton-projects/zkvote/server/src/services/zkVoteService.ts:166-172 | both vote counts are the number of recorded ballots and the registered count is the number of registered ids |
| ZkVoteService.ClearVotes | 2025/hackaton-projects/zkvote/server/src/services/zkVoteService.ts:175-181 | clearing drops all ballots and consumed nullifiers; it keeps every registration and commitment, and afterwards no voter has voted |
| ZkVoteService.GetEncryptedVotes | 2025/hackaton-projects/zkvote/server/src/services/zkVoteService.ts:184-186 | the copy is the stored ballot list itself, in order; it is as long as the reported vote count, and every ballot's nullifier has been consumed |
| ZkVoteService.CircuitAcceptsIff | 2025/hackaton-projects/zkvote/server/src/services/zkVoteService.ts:83-122 | with a loaded key, a proof is accepted exactly when all five checks pass, and the ballot recorded is the proof's vote commitment and nullifier hash |
| ZkVoteService.CircuitChecksInOrder | 2025/hackaton-projects/zkvote/server/src/services/zkVoteService.ts:85-110 | the reported error is that of the first failing check, in the order registration, commitment, nullifier reuse, proof, validity flag |
| ZkVoteService.ReplayRejected | 2025/hackaton-projects/zkvote/server/src/services/zkVoteService.ts:96-99 | a consumed nullifier hash is refused before the verifier runs, and the refusal changes nothing |
| ZkVoteService.NullifierSingleUse | 2025/hackaton-projects/zkvote/server/src/services/zkVoteService.ts:96-117 | once a ballot's nullifier is accepted, a circuit-path submission carrying it is refused, by any voter and with any verifier answer, in every later state whose consumed set contains the one left by the acceptance (verification and `Server.Run` only add to that set) |
| ZkVoteService.EmptyNullifierLeavesVoterUnmarked | 2025/hackaton-projects/zkvote/server/src/services/zkVoteService.ts:62-65 | a circuit-path ballot whose nullifier signal is the empty string is accepted and adds one ballot, yet `hasVoterVoted` still reports false for that voter |
| ZkVoteService.CircuitAcceptsVoterWhoVoted | 2025/hackaton-projects/zkvote/server/src/services/zkVoteService.ts:85-122 | the circuit path accepts a second ballot from a voter who has voted, if the new nullifier is fresh |
| ZkVoteService.KeyProblemsUseSimplified | 2025/hackaton-projects/zkvote/server/src/services/zkVoteService.ts:72-80 | a missing verification key, or one that cannot be read and parsed, sends the request to the simplified path |
| ZkVoteService.ThrowFallsBackToSimplified | 2025/hackaton-projects/zkvote/server/src/services/zkVoteService.ts:101-127 | a verifier that throws hands the unchanged state to the simplified path |
| ZkVoteService.SimplifiedOncePerVoter | 2025/hackaton-projects/zkvote/server/src/services/zkVoteService.ts:131-163 | the simplified path accepts a registered voter who has not voted and marks them; any further simplified submission by them is refused as already cast |
| ZkVoteService.SimplifiedRejects | 2025/hackaton-projects/zkvote/server/src/services/zkVoteService.ts:137-146 | the simplified path refuses unregistered voters and voters who have voted, without change |
| ZkVoteService.SimplifiedMayReuseNullifier | 2025/hackaton-projects/zkvote/server/src/services/zkVoteService.ts:149-159 | a simplified ballot whose derived nullifier an earlier ballot already carries is accepted, the consumed set does not grow, and two ballots share one nullifier |
| ZkVoteService.VerificationIsMonotone | 2025/hackaton-projects/zkvote/server/src/services/zkVoteService.ts:68-163 | verification never releases a consumed nullifier, never adds or drops a registration, and never alters a stored commitment |
| ZkVoteService.StatsCountBallotsAndVoters | 2025/hackaton-projects/zkvote/server/src/services/zkVoteService.ts:166-172 | the vote count grows by one exactly on acceptance; the registered count grows by one exactly when a new voter registers |
| ZkVoteService.ReRegistrationResetsVoter | 2025/hackaton-projects/zkvote/server/src/services/zkVoteService.ts:47-54 | registering again replaces the commitment and detaches the earlier ballot's nullifier, which stays consumed |
| VoteService.RegisterVote | 2025/hackaton-projects/zkvote/server/src/services/voteService.ts:17-19 | the voter's entry becomes the option; every other entry and the electorate size are unchanged |
| VoteService.SetTotalVoters | 2025/hackaton-projects/zkvote/server/src/services/voteService.ts:8-11 | the electorate size becomes the given number and no vote is kept |
| VoteService.ClearVotes | 2025/hackaton-projects/zkvote/server/src/services/voteService.ts:13-15 | no vote is kept and the electorate size is unchanged |
| VoteService.Counts | 2025/hackaton-projects/zkvote/server/src/services/voteService.ts:22-27 | entry k of the counts is the number of voters whose stored option is k |
| VoteService.Tabulate | 2025/hackaton-projects/zkvote/server/src/services/voteService.ts:21-33 | the results hold one count per option, entry k being the number of voters who chose k, `total` the number of voters stored and `maxVoters` the electorate size |
| VoteService.GetResults | 2025/hackaton-projects/zkvote/server/src/services/voteService.ts:21-33 | one pass over the stored votes produces the per-option counts, the number of voters and the electorate size |
| VoteService.SumOfCounts | 2025/hackaton-projects/zkvote/server/src/services/voteService.ts:22-27 | the counts add up to the number of voters whose option is an integer index into the list |
| VoteService.CountsBoundedByTotal | 2025/hackaton-projects/zkvote/server/src/services/voteService.ts:21-33 | the counts add up to at most `total`, with equality exactly when every stored option is an integer index |
| VoteService.FractionalOptionUncounted | 2025/hackaton-projects/zkvote/server/src/services/voteService.ts:24-25 | a fractional option inside the range adds one to `total` and nothing to any count |
| VoteService.LastWriteWins | 2025/hackaton-projects/zkvote/server/src/services/voteService.ts:17-19 | a second vote by the same voter replaces the first |
| VoteService.TotalCountsDistinctVoters | 2025/hackaton-projects/zkvote/server/src/services/voteService.ts:17-30 | `total` grows by one for a new voter and not at all for a voter already recorded |
| VoteService.SetTotalVotersResets | 2025/hackaton-projects/zkvote/server/src/services/voteService.ts:8-11 | after setting the electorate size, every count and the total are zero, and `maxVoters` is the new size |
| VoteService.ClearVotesKeepsTotal | 2025/hackaton-projects/zkvote/server/src/services/voteService.ts:13-15 | after clearing, every count and the total are zero, and `maxVoters` is unchanged |
| Server.ParseOptions | 2025/hackaton-projects/zkvote/server/src/index.ts:45 | every parsed option is non-empty, has no white space at either end and contains no comma (what the options are: `ParseOptionsAppend`, `ParseOptionsOfPiece`) |
| Server.TrimEach | 2025/hackaton-projects/zkvote/server/src/index.ts:45 | `.map(o => o.trim())` keeps the number and order of the pieces and trims each |
| Server.DropEmpty | 2025/hackaton-projects/zkvote/server/src/index.ts:45 | `.filter(o => o.length > 0)` keeps only non-empty pieces of its input, and every non-empty piece survives |
| Server.DropEmptyKeepsMultiplicity | 2025/hackaton-projects/zkvote/server/src/index.ts:45 | the filter keeps each non-empty piece exactly as often as it occurs and no empty piece |
| Server.DropEmptyAppend | 2025/hackaton-projects/zkvote/server/src/index.ts:45 | the filter works piece by piece, so it keeps the order of the pieces |
| Server.ParseOptionsAppend | 2025/hackaton-projects/zkvote/server/src/index.ts:45 | the options of `a,b` are the options of `a` followed by those of `b` |
| Server.ParseOptionsOfPiece | 2025/hackaton-projects/zkvote/server/src/index.ts:45 | a comma-free answer gives no option when it is all white space and otherwise exactly one option, the answer trimmed |
| Server.ParseOptionsRoundTrip | 2025/hackaton-projects/zkvote/server/src/index.ts:45 | a list of such options, typed comma-separated, parses back to the same list |
| Server.NoOptionsInEmptyAnswer | 2025/hackaton-projects/zkvote/server/src/index.ts:45-49 | an empty answer to the options prompt yields no options, so start-up stops with too few options |
| Server.Configure | 2025/hackaton-projects/zkvote/server/src/index.ts:28-58 | configuration succeeds exactly when the subject is not all white space and at least two options remain; the subject is checked first; the stored subject is the answer trimmed; the options are the parsed answer; IP blocking is on exactly for "y" or "Y"; the mode is plaintext |
| Server.LoadVoters | 2025/hackaton-projects/zkvote/server/src/index.ts:81-88 | loading fails exactly on an empty list; otherwise the electorate is the listed ids, nobody has voted, and the tally is empty with `maxVoters` the number of distinct ids; subject, options, IP-blocking flag, mode, blocked addresses and ZK registry are kept |
| Server.LoadVotersResetsResults | 2025/hackaton-projects/zkvote/server/src/index.ts:81-88 | right after loading, the results show zero votes for every option and `maxVoters` equal to the number of eligible voters |
| Server.Start | 2025/hackaton-projects/zkvote/server/src/index.ts:312-319 | start-up succeeds exactly when the configuration and the voter list are acceptable; the server then starts in plaintext mode, satisfies its invariant, and has no votes, no blocked addresses and an empty ZK registry; its subject is the trimmed answer, its options are the parsed option answer, and IP blocking is on exactly when the answer is "y" or "Y" |
| Server.ApiVerify | 2025/hackaton-projects/zkvote/server/src/index.ts:156-176 | a voter id is required; the answer's `valid` is membership of the electorate, `zkEnabled` is the mode, and `hasVoted` is the ZK service's record in ZK mode and the voted set otherwise |
| Server.ApiRegisterVoter | 2025/hackaton-projects/zkvote/server/src/index.ts:179-210 | registration succeeds exactly in ZK mode, for an eligible voter with id and secret who is not yet registered; only the ZK service changes, and it becomes exactly the service's `registerVoter` result, so other voters, consumed nullifiers and ballots are kept, and no stored commitment changes; the reply carries the stored commitment |
| Server.ApiZkVote | 2025/hackaton-projects/zkvote/server/src/index.ts:213-241 | a ZK vote is recorded exactly when ZK mode is on and an eligible voter's proof is accepted by the service; once the endpoint's own checks pass, the ZK service becomes exactly `verifyVoteProof`'s result, so `VerifyVoteProof`'s contract gives the full effect, and no stored commitment changes; any refusal changes nothing |
| Server.ApiVote | 2025/hackaton-projects/zkvote/server/src/index.ts:244-282 | a vote is recorded exactly when all of these hold: plaintext mode, a voter id, an option in range, an eligible voter, not yet voted, and no repeat of a blocked address; the voter, the address when blocking, and the option are then recorded; a refusal changes nothing |
| Server.ApiResults | 2025/hackaton-projects/zkvote/server/src/index.ts:285-310 | in ZK mode the reply gives the ballot count, the registered count and the electorate size; otherwise the options, the per-option counts of voters, the number of voters and the tally's electorate size |
| Server.Handle | 2025/hackaton-projects/zkvote/server/src/index.ts:156-310 | no request changes the mode, the electorate, the options or the blocking flag; none forgets a vote, a blocked address or a consumed nullifier; no request drops a registration or changes a stored commitment; in plaintext mode no request changes the ZK service, and in ZK mode no request changes the plaintext state |
| Server.Run | 2025/hackaton-projects/zkvote/server/src/index.ts:156-310 | a sequence of requests keeps the mode, the electorate, the options and the blocking flag, and never forgets a vote or a blocked address |
| Server.RunPreservesInvariant | 2025/hackaton-projects/zkvote/server/src/index.ts:156-310 | every sequence of requests keeps voters who voted within the electorate and equal to the tally's voters, keeps the electorate size in the tally, and keeps the ZK service consistent; it also keeps the configuration, never forgets a vote, a blocked address or a consumed nullifier, and keeps every registration with its stored commitment |
| Server.RegisterAtMostOnce | 2025/hackaton-projects/zkvote/server/src/index.ts:179-210 | after `/api/register-voter` stores a voter's commitment, any later requests keep `simpleHash(secret)` as that voter's commitment, and a second registration by the same voter is refused whatever secret it carries |
| Server.ZkEndpointsUnreachable | 2025/hackaton-projects/zkvote/server/src/index.ts:26-31 | from the state `Start` produces (plaintext mode, empty ZK registry, invariant), whatever requests arrive, ZK registration and ZK votes are refused and the ZK registry stays empty |
| Server.VoteAtMostOnce | 2025/hackaton-projects/zkvote/server/src/index.ts:263-271 | once a voter's vote is recorded, every later vote request for that voter is refused |
| Server.OneVotePerAddress | 2025/hackaton-projects/zkvote/server/src/index.ts:267-274 | with IP blocking on, once a vote from an address is recorded, every later vote from that address is refused, whoever casts it |
| Server.IneligibleChangesNothing | 2025/hackaton-projects/zkvote/server/src/index.ts:156-282 | a request naming a voter outside the electorate changes no state, and any vote or registration request is refused |
| Server.VerifyReflectsVote | 2025/hackaton-projects/zkvote/server/src/index.ts:162-175 | after a recorded plaintext vote, the verify endpoint reports the voter as eligible and as having voted |
| Server.PlaintextTallyMatchesVoted | 2025/hackaton-projects/zkvote/server/src/index.ts:296-305 | in plaintext mode the published total is the number of voters who voted, at most the published `maxVoters`, which is the electorate size; the counts add up to at most the total |
| Client.GenerateCommitment | 2025/hackaton-projects/zkvote/client/src/services/voteService.ts:28-30 | the client's commitment is a canonical numeral and equals the commitment the server stores for the same secret |
| Client.GenerateVoteProof | 2025/hackaton-projects/zkvote/client/src/services/voteService.ts:33-79 | the mock proof's five signals are `simpleHash` of `${voteOption}_${voterSecret}_${nullifier}`, `simpleHash` of `${voterSecret}_${nullifier}`, "1", the option count's numeral, and the voter's commitment |
| Client.RealProofInput | 2025/hackaton-projects/zkvote/client/src/services/voteService.ts:92-101 | the circuit input carries the vote, draw and option count; its secret field is the public commitment |
| Client.GenerateRealProof | 2025/hackaton-projects/zkvote/client/src/services/voteService.ts:82-116 | the prover's proof is returned when it succeeds; otherwise exactly the mock proof built with the fallback draw |
| Client.ProofIgnoresVoterId | 2025/hackaton-projects/zkvote/client/src/services/voteService.ts:33-79 | the voter id does not influence the mock proof |
| Client.CircuitSeesOnlyTheCommitment | 2025/hackaton-projects/zkvote/client/src/services/voteService.ts:95-101 | the secret handed to the circuit is the commitment the server already stores, not the voter's secret |
| Client.VoteCommitmentInputSplits | 2025/hackaton-projects/zkvote/client/src/services/voteService.ts:49 | for a secret without '_', the vote-commitment input splits on '_' into option, secret and draw |
| Client.VoteCommitmentInputLeadsWithOption | 2025/hackaton-projects/zkvote/client/src/services/voteService.ts:49 | for any secret, the text before the first '_' of the vote-commitment input is the option |
| Client.DrawsGiveDistinctNullifierInputs | 2025/hackaton-projects/zkvote/client/src/services/voteService.ts:43-52 | different draws give different nullifier-hash inputs for one secret |
| ClientServer.MockProofCarriesStoredCommitment | 2025/hackaton-projects/zkvote/client/src/services/voteService.ts:63-69 | the mock proof's commitment signal matches the commitment the server stored at registration |
| ClientServer.MockProofAccepted | 2025/hackaton-projects/zkvote/server/src/services/zkVoteService.ts:85-122 | a registered voter's mock proof with a fresh nullifier is accepted by the circuit path if the verifier accepts it; the ballot recorded is its first two signals, and the voter is marked as voted |
| ClientServer.OtherSecretRejected | 2025/hackaton-projects/zkvote/server/src/services/zkVoteService.ts:91-94 | a proof made with a secret of another commitment is refused as an invalid commitment, whatever the verifier says, without change |
| ClientServer.MissingKeyIgnoresSecret | 2025/hackaton-projects/zkvote/server/src/services/zkVoteService.ts:131-163 | without a verification key, a registered voter's first ballot is accepted whatever secret the proof was made with |
| ClientServer.CircuitPathAcceptsSecondDraw | 2025/hackaton-projects/zkvote/server/src/services/zkVoteService.ts:96-120 | with the verifier accepting, a voter's second mock proof with a fresh draw is accepted after the first, giving two ballots |
| ClientServer.ZkVoteRoundTrip | 2025/hackaton-projects/zkvote/server/src/index.ts:179-241 | in ZK mode, the following holds for a fresh nullifier: registering, then voting with the client's mock proof, is recorded, and verify then reports the voter as having voted |

## Left out

- The `/health` and `/api/voting-info` endpoints: they only echo the configuration and change nothing.
- `saveResults` and the SIGINT handler: they only format the tally and write a file.
- Parts of start-up are outside the model:
  - console output;
  - reading the three answers from the terminal;
  - reading and JSON-parsing `voters.json`.
  
  The model takes the answers and the parsed id list as inputs. A `process.exit(1)` becomes an `Aborted` result.
- A `voters.json` that is not an array, or that holds entries other than strings: voter ids are strings here.
- `setMaxVoteOptions` and the service's `maxVoteOptions` field: the value is stored but never read, and its only call sits under the always-false ZK flag.
- HTTP status codes, response message texts and the `500` responses of the handlers' `catch` blocks: replies carry the failure kind. Nothing in the modelled handlers throws, apart from the verifier, which is modelled.
- Request fields of unexpected JSON types: ids and secrets are strings or absent, and `option` is a JSON number or absent. A `proof` is present or absent; a present but falsy `proof` (`0`, `""`, `false`, `null`), or one whose `publicSignals` is not an array of strings, cannot be represented.
- JSON cannot encode `NaN` or `Infinity`. A number too large to represent arrives as `Infinity`, which the range guard refuses.
- Concurrency: each request is handled to completion before the next. In the source, `/api/zk-vote` awaits the verifier after the nullifier check, so two overlapping submissions with one nullifier could both pass that check. This interleaving is not modelled.
- The groth16 proof object, the verification key contents and the circuit itself: the verifier's answer and the prover are parameters.
- `Client.GenerateVoteProof`: `toString` of non-integer numbers is not modelled. The option and the option count are integers here, printed in plain digits at any magnitude (see the `JsText.DecimalInt` line below).
- JsText.DecimalInt: JavaScript prints integers of magnitude 10^21 or more in exponent notation (`1e+21`); the model prints every integer as plain digits. An option index or option count that large does not arise from a list of options typed at a prompt.
- `Client.GenerateVoteProof`: its `try`/`catch` is not modelled, because nothing inside it can throw.
- `VoteService.GetResults`: it visits the stored votes in an arbitrary order rather than the map's insertion order. The result does not depend on the order.

=== FILE: client.dfy ===
/** The browser client's vote service: the commitment a voter registers with,
    the development (mock) proof whose five public signals the server's ZK
    service reads, and the attempt at a real groth16 proof that falls back to
    the mock one.

    `Math.random()` becomes the drawn nullifier (`Math.floor(Math.random() * 1000000)`)
    and `groth16.fullProve` becomes a prover parameter; both are inputs here. */
module Client {
  import opened JsText
  import opened Hashing
  import ZkVoteService

  const NullifierRange: nat := 1000000

  /** A nullifier as the client draws it: an integer in `[0, 1000000)`. */
  type Draw = n: nat | n < NullifierRange

  /** `generateCommitment`: the value the server stores at registration. */
  function GenerateCommitment(voterSecret: JsString): (r: JsString)
    ensures IsCanonicalDecimal(r) && DecimalValue(r) <= Half
    ensures r == ZkVoteService.RegisterVoter(ZkVoteService.Empty, [], voterSecret).commitmentHash
  {
    SimpleHash(voterSecret)
  }

  /** The template string `${voteOption}_${voterSecret}_${nullifier}`. */
  function VoteCommitmentInput(voteOption: int, voterSecret: JsString, nullifier: Draw): JsString {
    Join([DecimalInt(voteOption), voterSecret, Decimal(nullifier)], Underscore)
  }

  /** The template string `${voterSecret}_${nullifier}`. */
  function NullifierInput(voterSecret: JsString, nullifier: Draw): JsString {
    voterSecret + [Underscore] + Decimal(nullifier)
  }

  /** `generateVoteProof` with the nullifier already drawn: the public signals
      `[voteCommitment, nullifierHash, "1", maxOptions, commitmentHash]`. */
  function GenerateVoteProof(voterId: JsString, voterSecret: JsString, voteOption: int, maxOptions: int,
                             nullifier: Draw): (p: ZkVoteService.ZkProof)
    ensures |p.publicSignals| == 5
    ensures p.publicSignals[ZkVoteService.VoteCommitmentAt] == SimpleHash(VoteCommitmentInput(voteOption, voterSecret, nullifier))
    ensures p.publicSignals[ZkVoteService.NullifierHashAt] == SimpleHash(NullifierInput(voterSecret, nullifier))
    ensures p.publicSignals[ZkVoteService.ValidVoteAt] == One
    ensures p.publicSignals[ZkVoteService.MaxOptionsAt] == DecimalInt(maxOptions)
    ensures p.publicSignals[ZkVoteService.CommitmentHashAt] == GenerateCommitment(voterSecret)
    ensures IsCanonicalDecimal(p.publicSignals[ZkVoteService.VoteCommitmentAt])
    ensures IsCanonicalDecimal(p.publicSignals[ZkVoteService.NullifierHashAt])
    ensures maxOptions >= 0 ==>
              IsDigits(p.publicSignals[ZkVoteService.MaxOptionsAt]) && DecimalValue(p.publicSignals[ZkVoteService.MaxOptionsAt]) == maxOptions
  {
    var commitmentHash := GenerateCommitment(voterSecret);
    var voteCommitment := SimpleHash(VoteCommitmentInput(voteOption, voterSecret, nullifier));
    var nullifierHash := SimpleHash(NullifierInput(voterSecret, nullifier));
    ZkVoteService.ZkProof([voteCommitment, nullifierHash, One, DecimalInt(maxOptions), commitmentHash])
  }

  /** The witness handed to `groth16.fullProve`. */
  datatype CircuitInput = CircuitInput(
    vote: int,
    voterSecret: JsString,
    nullifier: nat,
    maxVoteOptions: int,
    commitmentHash: JsString)

  /** What the prover does: produce a proof, or throw (including when snarkjs
      or the circuit files cannot be loaded). */
  datatype ProverAnswer = Proved(proof: ZkVoteService.ZkProof) | ProverFailed

  /** The circuit input `generateRealProof` builds. */
  function RealProofInput(voterSecret: JsString, voteOption: int, maxOptions: int, nullifier: Draw): (input: CircuitInput)
    ensures input.commitmentHash == GenerateCommitment(voterSecret)
    ensures input.voterSecret == input.commitmentHash
    ensures input.vote == voteOption && input.nullifier == nullifier && input.maxVoteOptions == maxOptions
  {
    CircuitInput(voteOption, SimpleHash(voterSecret), nullifier, maxOptions, GenerateCommitment(voterSecret))
  }

  /** `generateRealProof`: the prover's proof when it succeeds; otherwise the mock
      proof, built with a second, independent draw. */
  function GenerateRealProof(voterId: JsString, voterSecret: JsString, voteOption: int, maxOptions: int,
                             prove: CircuitInput -> ProverAnswer, nullifier: Draw, fallbackNullifier: Draw)
    : (p: ZkVoteService.ZkProof)
    ensures prove(RealProofInput(voterSecret, voteOption, maxOptions, nullifier)).Proved? ==>
              p == prove(RealProofInput(voterSecret, voteOption, maxOptions, nullifier)).proof
    ensures prove(RealProofInput(voterSecret, voteOption, maxOptions, nullifier)).ProverFailed? ==>
              && p == GenerateVoteProof(voterId, voterSecret, voteOption, maxOptions, fallbackNullifier)
              && |p.publicSignals| == 5
              && p.publicSignals[ZkVoteService.CommitmentHashAt] == GenerateCommitment(voterSecret)
              && p.publicSignals[ZkVoteService.ValidVoteAt] == One
  {
    match prove(RealProofInput(voterSecret, voteOption, maxOptions, nullifier))
    case Proved(proof) => proof
    case ProverFailed => GenerateVoteProof(voterId, voterSecret, voteOption, maxOptions, fallbackNullifier)
  }

  // ---------------------------------------------------------------------------
  // Properties of the client

  /** The voter id takes no part in the mock proof. */
  lemma ProofIgnoresVoterId(a: JsString, b: JsString, voterSecret: JsString, voteOption: int, maxOptions: int,
                            nullifier: Draw)
    ensures GenerateVoteProof(a, voterSecret, voteOption, maxOptions, nullifier)
            == GenerateVoteProof(b, voterSecret, voteOption, maxOptions, nullifier)
  {
  }

  /** The witness's `voterSecret` field is the public commitment itself, so the
      circuit is never given anything the server does not already store. */
  lemma CircuitSeesOnlyTheCommitment(voterSecret: JsString, voteOption: int, maxOptions: int, nullifier: Draw)
    ensures RealProofInput(voterSecret, voteOption, maxOptions, nullifier).voterSecret
            == ZkVoteService.RegisterVoter(ZkVoteService.Empty, [], voterSecret).commitmentHash
  {
  }

  lemma NoUnderscoreInDecimal(i: int)
    ensures Underscore !in DecimalInt(i)
  {
    var r := DecimalInt(i);
    forall k | 0 <= k < |r|
      ensures r[k] != Underscore
    {
      if i < 0 && k > 0 {
        assert r[k] == r[1..][k - 1];
      }
    }
  }

  /** When the secret has no '_', the vote-commitment input splits on '_' back
      into the option, the secret and the nullifier, in that order. */
  lemma VoteCommitmentInputSplits(voteOption: int, voterSecret: JsString, nullifier: Draw)
    requires Underscore !in voterSecret
    ensures Split(VoteCommitmentInput(voteOption, voterSecret, nullifier), Underscore)
            == [DecimalInt(voteOption), voterSecret, DecimalInt(nullifier)]
  {
    NoUnderscoreInDecimal(voteOption);
    NoUnderscoreInDecimal(nullifier);
    var parts := [DecimalInt(voteOption), voterSecret, Decimal(nullifier)];
    SplitJoin(parts, Underscore);
  }

  /** The option can be read back from the vote-commitment input: it is the
      text before the first '_'. */
  lemma VoteCommitmentInputLeadsWithOption(voteOption: int, voterSecret: JsString, nullifier: Draw)
    ensures Split(VoteCommitmentInput(voteOption, voterSecret, nullifier), Underscore)[0] == DecimalInt(voteOption)
  {
    NoUnderscoreInDecimal(voteOption);
    var head := DecimalInt(voteOption);
    var s := VoteCommitmentInput(voteOption, voterSecret, nullifier);
    var tail := Join([voterSecret, Decimal(nullifier)], Underscore);
    assert [head, voterSecret, Decimal(nullifier)][1..] == [voterSecret, Decimal(nullifier)];
    assert s == head + [Underscore] + tail;
    assert s[|head|] == Underscore;
    assert forall k :: 0 <= k < |head| ==> s[k] == head[k];
    var i := IndexOf(s, Underscore);
    assert i == |head|;
    assert s[..i] == head;
  }

  /** Different draws give different nullifier-hash inputs for the same secret. */
  lemma {:induction false} DrawsGiveDistinctNullifierInputs(voterSecret: JsString, n1: Draw, n2: Draw)
    requires n1 != n2
    ensures NullifierInput(voterSecret, n1) != NullifierInput(voterSecret, n2)
  {
    var a := NullifierInput(voterSecret, n1);
    var b := NullifierInput(voterSecret, n2);
    var at := |voterSecret| + 1;
    assert a[at..] == Decimal(n1);
    assert b[at..] == Decimal(n2);
    assert DecimalValue(Decimal(n1)) != DecimalValue(Decimal(n2));
  }
}

=== FILE: client_server.dfy ===
/** How the client's proofs meet the server's checks: the commitment the client
    derives from a secret is the one the server stores, a mock proof passes the
    circuit path when the verifier accepts it and its nullifier is fresh, and a
    proof made with another secret is turned away on the commitment check. */
module ClientServer {
  import opened JsText
  import opened Hashing
  import ZkVoteService
  import Client
  import Server

  /** The registry after `registerVoter(voterId, voterSecret)`. */
  function Registered(s: ZkVoteService.Service, voterId: JsString, voterSecret: JsString): ZkVoteService.Service {
    ZkVoteService.RegisterVoter(s, voterId, voterSecret).service
  }

  /** The mock proof's last signal is the commitment the server stored for the voter. */
  lemma MockProofCarriesStoredCommitment(s: ZkVoteService.Service, voterId: JsString, voterSecret: JsString,
                                         voteOption: int, maxOptions: int, nullifier: Client.Draw)
    ensures var p := Client.GenerateVoteProof(voterId, voterSecret, voteOption, maxOptions, nullifier);
      ZkVoteService.Signal(p, ZkVoteService.CommitmentHashAt)
      == Present(Registered(s, voterId, voterSecret).voterCommitments[voterId].commitmentHash)
  {
  }

  /** A registered voter's mock proof with a fresh nullifier is accepted when the
      verifier accepts it, and the ballot recorded is the proof's first two signals. */
  lemma MockProofAccepted(s: ZkVoteService.Service, voterId: JsString, voterSecret: JsString,
                          voteOption: int, maxOptions: int, nullifier: Client.Draw, now: nat)
    requires SimpleHash(Client.NullifierInput(voterSecret, nullifier)) !in s.usedNullifiers
    ensures var reg := Registered(s, voterId, voterSecret);
      var p := Client.GenerateVoteProof(voterId, voterSecret, voteOption, maxOptions, nullifier);
      var r := ZkVoteService.VerifyVoteProof(reg, p, voterId, ZkVoteService.KeyLoaded(ZkVoteService.ProofValid), now);
      && r.verdict == ZkVoteService.Accepted
      && r.service.encryptedVotes
         == reg.encryptedVotes + [ZkVoteService.EncryptedVote(p.publicSignals[0], p.publicSignals[1])]
      && ZkVoteService.HasVoterVoted(r.service, voterId)
  {
  }

  /** A proof made with a secret whose commitment is not the one stored for the
      voter is refused on the commitment check, whatever the verifier would say,
      and nothing changes. */
  lemma OtherSecretRejected(s: ZkVoteService.Service, voterId: JsString, otherSecret: JsString,
                            voteOption: int, maxOptions: int, nullifier: Client.Draw,
                            answer: ZkVoteService.VerifierAnswer, now: nat)
    requires voterId in s.voterCommitments
    requires s.voterCommitments[voterId].commitmentHash != Client.GenerateCommitment(otherSecret)
    ensures var p := Client.GenerateVoteProof(voterId, otherSecret, voteOption, maxOptions, nullifier);
      ZkVoteService.VerifyVoteProof(s, p, voterId, ZkVoteService.KeyLoaded(answer), now)
      == ZkVoteService.Verification(s, ZkVoteService.Rejected(ZkVoteService.InvalidCommitment))
  {
    var p := Client.GenerateVoteProof(voterId, otherSecret, voteOption, maxOptions, nullifier);
    assert ZkVoteService.Signal(p, ZkVoteService.CommitmentHashAt) == Present(Client.GenerateCommitment(otherSecret));
    assert ZkVoteService.CircuitVerification(s, p, voterId, answer)
        == ZkVoteService.Finished(ZkVoteService.Verification(s, ZkVoteService.Rejected(ZkVoteService.InvalidCommitment)));
  }

  /** Without a verification key the simplified path accepts a first ballot from
      a registered voter whatever secret the proof was made with. */
  lemma MissingKeyIgnoresSecret(s: ZkVoteService.Service, voterId: JsString, voterSecret: JsString, otherSecret: JsString,
                                voteOption: int, maxOptions: int, nullifier: Client.Draw, now: nat)
    ensures var reg := Registered(s, voterId, voterSecret);
      var p := Client.GenerateVoteProof(voterId, otherSecret, voteOption, maxOptions, nullifier);
      ZkVoteService.VerifyVoteProof(reg, p, voterId, ZkVoteService.KeyMissing, now).verdict == ZkVoteService.Accepted
  {
  }

  /** The circuit path does not consult the voter's recorded nullifier: after an
      accepted ballot, a second mock proof from the same voter with a new draw
      whose nullifier hash is unused is accepted as well. */
  lemma CircuitPathAcceptsSecondDraw(s: ZkVoteService.Service, voterId: JsString, voterSecret: JsString,
                                     voteOption: int, maxOptions: int, n1: Client.Draw, n2: Client.Draw, now: nat)
    requires SimpleHash(Client.NullifierInput(voterSecret, n1)) !in s.usedNullifiers
    requires SimpleHash(Client.NullifierInput(voterSecret, n2)) !in s.usedNullifiers
    requires SimpleHash(Client.NullifierInput(voterSecret, n1)) != SimpleHash(Client.NullifierInput(voterSecret, n2))
    ensures var circuit := ZkVoteService.KeyLoaded(ZkVoteService.ProofValid);
      var first := ZkVoteService.VerifyVoteProof(Registered(s, voterId, voterSecret),
                     Client.GenerateVoteProof(voterId, voterSecret, voteOption, maxOptions, n1), voterId, circuit, now);
      var second := ZkVoteService.VerifyVoteProof(first.service,
                      Client.GenerateVoteProof(voterId, voterSecret, voteOption, maxOptions, n2), voterId, circuit, now);
      && first.verdict == ZkVoteService.Accepted
      && ZkVoteService.HasVoterVoted(first.service, voterId)
      && second.verdict == ZkVoteService.Accepted
      && |second.service.encryptedVotes| == |s.encryptedVotes| + 2
  {
    var circuit := ZkVoteService.KeyLoaded(ZkVoteService.ProofValid);
    var reg := Registered(s, voterId, voterSecret);
    var p1 := Client.GenerateVoteProof(voterId, voterSecret, voteOption, maxOptions, n1);
    var p2 := Client.GenerateVoteProof(voterId, voterSecret, voteOption, maxOptions, n2);
    MockProofAccepted(s, voterId, voterSecret, voteOption, maxOptions, n1, now);
    var first := ZkVoteService.VerifyVoteProof(reg, p1, voterId, circuit, now);
    assert first.service.usedNullifiers == s.usedNullifiers + {p1.publicSignals[1]};
    assert first.service.voterCommitments[voterId].commitmentHash == Client.GenerateCommitment(voterSecret);
    ZkVoteService.CircuitAcceptsVoterWhoVoted(first.service, p2, voterId, now);
  }

  /** Through the server's endpoints in ZK mode: registration, a ZK vote with the
      client's mock proof accepted by the verifier, and `/api/verify` then reports
      the voter as having voted. */
  lemma ZkVoteRoundTrip(s: Server.Server, voterId: JsString, voterSecret: JsString,
                        voteOption: int, nullifier: Client.Draw, now: nat)
    requires s.useZeroKnowledge && |voterId| > 0 && |voterSecret| > 0
    requires voterId in s.validVoters && !ZkVoteService.IsVoterRegistered(s.zk, voterId)
    requires SimpleHash(Client.NullifierInput(voterSecret, nullifier)) !in s.zk.usedNullifiers
    ensures var registered := Server.ApiRegisterVoter(s, Present(voterId), Present(voterSecret));
      var p := Client.GenerateVoteProof(voterId, voterSecret, voteOption, |s.options|, nullifier);
      var voted := Server.ApiZkVote(registered.server, Present(voterId), Present(p),
                                    ZkVoteService.KeyLoaded(ZkVoteService.ProofValid), now);
      && registered.reply == Server.VoterRegistered(Client.GenerateCommitment(voterSecret), |s.options|)
      && voted.reply == Server.ZkVoteRecorded
      && Server.ApiVerify(voted.server, Present(voterId)) == Server.VerifyResult(true, true, true)
  {
    MockProofAccepted(s.zk, voterId, voterSecret, voteOption, |s.options|, nullifier, now);
  }
}

=== FILE: hashing.dfy ===
/** The development hash `simpleHash` that both the server's ZK service and the
    client's vote service use for commitments, nullifier hashes and vote
    commitments: a 31-multiplier rolling hash over UTF-16 code units, kept in
    32-bit signed range, printed as the decimal form of its absolute value.

    JavaScript evaluates the loop body on doubles. Every intermediate value stays
    below 2^33 in magnitude, so the doubles hold it exactly and unbounded integers
    with explicit ToInt32 reductions model it exactly. */
module Hashing {
  import opened JsText

  const Modulus: int := 0x1_0000_0000   // 2^32
  const Half: int := 0x8000_0000        // 2^31

  predicate IsInt32(x: int) {
    -Half <= x < Half
  }

  /** ECMAScript ToInt32 on an integral value: the unique 32-bit signed integer
      congruent to `x` modulo 2^32. */
  function ToInt32(x: int): (r: int)
    ensures IsInt32(r)
    ensures (r - x) % Modulus == 0
  {
    var m := x % Modulus;
    if m >= Half then m - Modulus else m
  }

  /** Euclidean division by 2^32 has one quotient and one remainder. */
  lemma DivModUnique(a: int, q: int, m: int)
    requires a == q * 0x1_0000_0000 + m && 0 <= m < 0x1_0000_0000
    ensures a % Modulus == m
  {
  }

  /** Adding a multiple of 2^32 does not change ToInt32. */
  lemma ToInt32Shift(b: int, k: int)
    ensures ToInt32(b + k * 0x1_0000_0000) == ToInt32(b)
  {
    DivModUnique(b + k * 0x1_0000_0000, b / Modulus + k, b % Modulus);
  }

  /** Values congruent modulo 2^32 have the same ToInt32. */
  lemma ToInt32Congruent(a: int, b: int)
    requires (a - b) % Modulus == 0
    ensures ToInt32(a) == ToInt32(b)
  {
    var q := (a - b) / Modulus;
    assert a == b + q * 0x1_0000_0000;
    ToInt32Shift(b, q);
  }

  /** `x << 5`: ToInt32 of the operand, shifted within 32 bits, read back as signed. */
  function ShiftLeft5(x: int): int {
    ToInt32(ToInt32(x) * 32)
  }

  /** One pass of the source loop body as written:
      `hash = ((hash << 5) - hash) + char; hash = hash & hash`,
      where `hash & hash` is ToInt32(hash). */
  function LoopStep(hash: int, c: CodeUnit): int {
    ToInt32(ShiftLeft5(hash) - hash + c)
  }

  /** The 32-bit rolling hash: h <- ToInt32(31 * h + c) for each code unit, from h = 0. */
  function Hash32(s: JsString): (h: int)
    ensures IsInt32(h)
  {
    if |s| == 0 then 0 else ToInt32(31 * Hash32(s[..|s| - 1]) + s[|s| - 1])
  }

  /** The unreduced polynomial sum of s[i] * 31^(|s|-1-i). */
  function Polynomial(s: JsString): int {
    if |s| == 0 then 0 else 31 * Polynomial(s[..|s| - 1]) + s[|s| - 1]
  }

  /** The source's shift-and-subtract step is the modular step h <- ToInt32(31 * h + c). */
  lemma LoopStepIsModular(hash: int, c: CodeUnit)
    ensures LoopStep(hash, c) == ToInt32(31 * hash + c)
  {
    var a := ToInt32(hash);
    var b := ToInt32(a * 32);
    var qa := (a - hash) / Modulus;
    var qb := (b - a * 32) / Modulus;
    assert a == hash + qa * 0x1_0000_0000;
    assert b == a * 32 + qb * 0x1_0000_0000;
    assert b - hash + c == (31 * hash + c) + (qb + 32 * qa) * 0x1_0000_0000;
    ToInt32Shift(31 * hash + c, qb + 32 * qa);
  }

  /** One rolling step maps congruent hash values to the same 32-bit value. */
  lemma StepRespectsCongruence(x: int, y: int, c: CodeUnit)
    requires (x - y) % Modulus == 0
    ensures ToInt32(31 * x + c) == ToInt32(31 * y + c)
  {
    var q := (x - y) / Modulus;
    assert x == y + q * 0x1_0000_0000;
    assert 31 * x + c == (31 * y + c) + (31 * q) * 0x1_0000_0000;
    ToInt32Shift(31 * y + c, 31 * q);
  }

  /** The rolling hash is the polynomial hash reduced to 32 bits. */
  lemma {:induction false} Hash32IsReducedPolynomial(s: JsString)
    ensures Hash32(s) == ToInt32(Polynomial(s))
  {
    if |s| > 0 {
      var p := s[..|s| - 1];
      Hash32IsReducedPolynomial(p);
      StepRespectsCongruence(Hash32(p), Polynomial(p), s[|s| - 1]);
    }
  }

  function Abs(x: int): nat {
    if x < 0 then -x else x
  }

  /** `simpleHash(input)`: the decimal form of |Hash32(input)|. */
  function SimpleHash(input: JsString): (r: JsString)
    ensures IsCanonicalDecimal(r)
    ensures DecimalValue(r) <= Half
    ensures DecimalValue(r) == Abs(ToInt32(Polynomial(input)))
    ensures |input| == 0 ==> r == [Zero]
  {
    Hash32IsReducedPolynomial(input);
    Decimal(Abs(Hash32(input)))
  }

  /** The hashing loop as the source writes it, with the literal shift,
      subtraction and `hash & hash` per code unit. */
  method ComputeSimpleHash(input: JsString) returns (r: JsString)
    ensures r == SimpleHash(input)
  {
    var hash := 0;
    var i := 0;
    while i < |input|
      invariant 0 <= i <= |input|
      invariant hash == Hash32(input[..i])
    {
      LoopStepIsModular(hash, input[i]);
      assert input[..i + 1][..i] == input[..i];
      hash := LoopStep(hash, input[i]);
      i := i + 1;
    }
    assert input[..i] == input;
    r := Decimal(Abs(hash));
  }
}

=== FILE: js_text.dfy ===
/** JavaScript string values as the zkvote server and client handle them:
    sequences of UTF-16 code units, together with the few `String.prototype`
    and `Number.prototype` operations the voting code relies on
    (`toString` of an integer, `split`, `trim`, `join`). */
module JsText {

  /** One UTF-16 code unit, the value `charCodeAt` returns. */
  type CodeUnit = c: int | 0 <= c < 0x1_0000

  /** A JavaScript string. */
  type JsString = seq<CodeUnit>

  /** A request field or record property that may be `undefined`. */
  datatype Maybe<+T> = Absent | Present(value: T)

  /** JavaScript truthiness of a possibly undefined string: defined and not "". */
  predicate Truthy(s: Maybe<JsString>) {
    s.Present? && |s.value| > 0
  }

  const Zero: CodeUnit := 48        // '0'
  const MinusSign: CodeUnit := 45   // '-'
  const Comma: CodeUnit := 44       // ','
  const Underscore: CodeUnit := 95  // '_'

  /** The string "1". */
  const One: JsString := [49]

  predicate IsDigit(c: CodeUnit) {
    Zero <= c <= Zero + 9
  }

  predicate IsDigits(s: JsString) {
    forall i :: 0 <= i < |s| ==> IsDigit(s[i])
  }

  /** A decimal numeral as `toString` prints one: digits only, no leading zero except "0". */
  predicate IsCanonicalDecimal(s: JsString) {
    |s| > 0 && IsDigits(s) && (s[0] == Zero ==> |s| == 1)
  }

  /** The number a digit string denotes (the reading direction of `toString`). */
  function DecimalValue(s: JsString): nat
    requires IsDigits(s)
  {
    if |s| == 0 then 0 else DecimalValue(s[..|s| - 1]) * 10 + (s[|s| - 1] - Zero)
  }

  /** `n.toString()` for a non-negative integer `n`. JavaScript switches to
      exponent notation from 10^21 on; every value the model prints this way
      (hashes, clock readings, draws) lies far below that. */
  function Decimal(n: nat): (r: JsString)
    ensures IsCanonicalDecimal(r)
    ensures DecimalValue(r) == n
  {
    if n < 10 then [Zero + n]
    else
      var prefix := Decimal(n / 10);
      assert (prefix + [Zero + n % 10])[..|prefix|] == prefix;
      prefix + [Zero + n % 10]
  }

  /** `i.toString()` for an integer `i`, with a leading '-' when negative
      (plain digits throughout, as JavaScript prints integers below 10^21). */
  function DecimalInt(i: int): (r: JsString)
    ensures |r| > 0
    ensures i >= 0 ==> IsCanonicalDecimal(r) && DecimalValue(r) == i
    ensures i < 0 ==> r[0] == MinusSign && IsCanonicalDecimal(r[1..]) && DecimalValue(r[1..]) == -i
  {
    if i < 0 then [MinusSign] + Decimal(-i) else Decimal(i)
  }

  /** `parts.join('')`. */
  function Concat(parts: seq<JsString>): (r: JsString)
    ensures |parts| == 0 ==> r == []
    ensures |parts| == 1 ==> r == parts[0]
  {
    if |parts| == 0 then [] else parts[0] + Concat(parts[1..])
  }

  /** Joining with no separator is a homomorphism: together with the empty and
      one-piece cases this fixes `join('')` completely. */
  lemma {:induction false} ConcatAppend(a: seq<JsString>, b: seq<JsString>)
    ensures Concat(a + b) == Concat(a) + Concat(b)
  {
    if |a| > 0 {
      ConcatAppend(a[1..], b);
      assert (a + b)[1..] == a[1..] + b;
    } else {
      assert a + b == b;
    }
  }

  // ---------------------------------------------------------------------------
  // split(sep) and its inverse join(sep)

  /** Position of the first occurrence of `c` in `s`. */
  function IndexOf(s: JsString, c: CodeUnit): (i: nat)
    requires c in s
    ensures i < |s| && s[i] == c && c !in s[..i]
  {
    if s[0] == c then 0
    else
      var j := IndexOf(s[1..], c);
      assert s[..j + 1] == [s[0]] + s[1..][..j];
      j + 1
  }

  /** `s.split(sep)` for a one-code-unit separator: the maximal separator-free
      pieces, in order; the empty string splits into one empty piece. */
  function Split(s: JsString, sep: CodeUnit): (parts: seq<JsString>)
    ensures |parts| > 0
    ensures forall k :: 0 <= k < |parts| ==> sep !in parts[k]
    decreases |s|
  {
    if sep !in s then [s]
    else
      var i := IndexOf(s, sep);
      [s[..i]] + Split(s[i + 1..], sep)
  }

  /** `parts.join(sep)` for a one-code-unit separator. */
  function Join(parts: seq<JsString>, sep: CodeUnit): JsString {
    if |parts| == 0 then []
    else if |parts| == 1 then parts[0]
    else parts[0] + [sep] + Join(parts[1..], sep)
  }

  /** Joining the pieces of a split gives back the original string. */
  lemma {:induction false} JoinSplit(s: JsString, sep: CodeUnit)
    ensures Join(Split(s, sep), sep) == s
    decreases |s|
  {
    if sep in s {
      var i := IndexOf(s, sep);
      var rest := Split(s[i + 1..], sep);
      JoinSplit(s[i + 1..], sep);
      assert Split(s, sep) == [s[..i]] + rest;
      assert ([s[..i]] + rest)[1..] == rest;
      assert s == s[..i] + [sep] + s[i + 1..];
    }
  }

  /** Splitting a join of separator-free pieces gives back the pieces. */
  lemma {:induction false} SplitJoin(parts: seq<JsString>, sep: CodeUnit)
    requires |parts| > 0
    requires forall k :: 0 <= k < |parts| ==> sep !in parts[k]
    ensures Split(Join(parts, sep), sep) == parts
  {
    if |parts| > 1 {
      var head := parts[0];
      var tail := Join(parts[1..], sep);
      var s := head + [sep] + tail;
      assert s[|head|] == sep;
      assert forall k :: 0 <= k < |head| ==> s[k] == head[k];
      var i := IndexOf(s, sep);
      assert i == |head|;
      assert s[..i] == head;
      assert s[i + 1..] == tail;
      SplitJoin(parts[1..], sep);
      assert parts == [head] + parts[1..];
    }
  }

  /** The first separator is the one `IndexOf` finds. */
  lemma IndexOfIsFirst(s: JsString, c: CodeUnit, i: nat)
    requires i < |s| && s[i] == c && c !in s[..i]
    ensures IndexOf(s, c) == i
  {
    var j := IndexOf(s, c);
    AbsentFromPrefix(s, c, i);
    AbsentFromPrefix(s, c, j);
  }

  lemma AbsentFromPrefix(s: JsString, c: CodeUnit, n: nat)
    requires n <= |s| && c !in s[..n]
    ensures forall k :: 0 <= k < n ==> s[k] != c
  {
    forall k | 0 <= k < n
      ensures s[k] != c
    {
      assert s[..n][k] == s[k];
    }
  }

  lemma AppendAssociates<T>(x: seq<T>, y: seq<T>, z: seq<T>)
    ensures x + (y + z) == (x + y) + z
  {
  }

  /** Splitting at a separator splits the two sides independently. */
  lemma {:induction false} SplitAppend(a: JsString, b: JsString, sep: CodeUnit)
    ensures Split(a + [sep] + b, sep) == Split(a, sep) + Split(b, sep)
    decreases |a|
  {
    var s := a + [sep] + b;
    assert s[|a|] == sep;
    if sep !in a {
      assert s[..|a|] == a;
      IndexOfIsFirst(s, sep, |a|);
      assert s[|a| + 1..] == b;
      assert Split(s, sep) == [a] + Split(b, sep);
      assert Split(a, sep) == [a];
    } else {
      var i := IndexOf(a, sep);
      assert s[..i] == a[..i] by {
        assert a[..i] == s[..|a|][..i];
      }
      assert s[i] == sep && sep !in s[..i];
      IndexOfIsFirst(s, sep, i);
      var rest := a[i + 1..];
      assert s[i + 1..] == rest + [sep] + b;
      SplitAppend(rest, b, sep);
      var tail := Split(s[i + 1..], sep);
      assert tail == Split(rest, sep) + Split(b, sep);
      assert Split(s, sep) == [a[..i]] + tail;
      assert Split(a, sep) == [a[..i]] + Split(rest, sep);
      AppendAssociates([a[..i]], Split(rest, sep), Split(b, sep));
    }
  }

  // ---------------------------------------------------------------------------
  // trim()

  /** The code units `String.prototype.trim` removes: ECMAScript WhiteSpace
      (TAB, VT, FF, SP, NBSP, ZWNBSP and the Zs category) and LineTerminator
      (LF, CR, LS, PS). */
  predicate IsSpace(c: CodeUnit) {
    || c == 0x09 || c == 0x0A || c == 0x0B || c == 0x0C || c == 0x0D || c == 0x20
    || c == 0xA0 || c == 0x1680 || (0x2000 <= c <= 0x200A) || c == 0x2028 || c == 0x2029
    || c == 0x202F || c == 0x205F || c == 0x3000 || c == 0xFEFF
  }

  predicate AllSpace(s: JsString) {
    forall k :: 0 <= k < |s| ==> IsSpace(s[k])
  }

  /** Neither starts nor ends with white space. */
  predicate IsTrimmed(s: JsString) {
    |s| == 0 || (!IsSpace(s[0]) && !IsSpace(s[|s| - 1]))
  }

  /** `s.trimStart()`: the longest suffix not starting with white space, all of whose
      dropped prefix is white space. */
  function TrimStart(s: JsString): (r: JsString)
    ensures |r| <= |s| && r == s[|s| - |r|..]
    ensures forall k :: 0 <= k < |s| - |r| ==> IsSpace(s[k])
    ensures |r| > 0 ==> !IsSpace(r[0])
  {
    if |s| > 0 && IsSpace(s[0]) then
      var r := TrimStart(s[1..]);
      assert s[1..][|s| - 1 - |r|..] == s[|s| - |r|..];
      r
    else s
  }

  /** `s.trimEnd()`: the longest prefix not ending with white space, all of whose
      dropped suffix is white space. */
  function TrimEnd(s: JsString): (r: JsString)
    ensures |r| <= |s| && r == s[..|r|]
    ensures forall k :: |r| <= k < |s| ==> IsSpace(s[k])
    ensures |r| > 0 ==> !IsSpace(r[|r| - 1])
  {
    if |s| > 0 && IsSpace(s[|s| - 1]) then
      var r := TrimEnd(s[..|s| - 1]);
      assert s[..|s| - 1][..|r|] == s[..|r|];
      r
    else s
  }

  /** `s.trim()`: white space removed at both ends. */
  function Trim(s: JsString): (r: JsString)
    ensures IsTrimmed(r)
    ensures |r| == 0 <==> AllSpace(s)
    ensures IsTrimmed(s) ==> r == s
  {
    var front := TrimStart(s);
    var r := TrimEnd(front);
    TrimEmpty(s, front, r);
    TrimOfTrimmed(s, front, r);
    r
  }

  /** `trim()` keeps a contiguous part of its input and cuts off only white space. */
  lemma TrimIsInfix(s: JsString)
    ensures exists lo, hi :: 0 <= lo <= hi <= |s| && Trim(s) == s[lo..hi] && AllSpace(s[..lo]) && AllSpace(s[hi..])
  {
    var front := TrimStart(s);
    var r := TrimEnd(front);
    assert Trim(s) == r;
    InfixWitness(s, front, r);
  }

  lemma InfixWitness(s: JsString, front: JsString, r: JsString)
    requires |front| <= |s| && front == s[|s| - |front|..]
    requires forall k :: 0 <= k < |s| - |front| ==> IsSpace(s[k])
    requires |r| <= |front| && r == front[..|r|]
    requires forall k :: |r| <= k < |front| ==> IsSpace(front[k])
    ensures exists lo, hi :: 0 <= lo <= hi <= |s| && r == s[lo..hi] && AllSpace(s[..lo]) && AllSpace(s[hi..])
  {
    var lo := |s| - |front|;
    var hi := lo + |r|;
    assert r == s[lo..hi];
    SpacePrefix(s, lo);
    SpaceSuffix(s, front, lo, hi);
    assert AllSpace(s[..lo]) && AllSpace(s[hi..]);
  }

  lemma SpacePrefix(s: JsString, lo: nat)
    requires lo <= |s|
    requires forall k :: 0 <= k < lo ==> IsSpace(s[k])
    ensures AllSpace(s[..lo])
  {
    forall k | 0 <= k < lo
      ensures IsSpace(s[..lo][k])
    {
      assert s[..lo][k] == s[k];
    }
  }

  lemma SpaceSuffix(s: JsString, front: JsString, lo: nat, hi: nat)
    requires lo <= hi <= |s| && front == s[lo..]
    requires forall k :: hi - lo <= k < |front| ==> IsSpace(front[k])
    ensures AllSpace(s[hi..])
  {
    forall k | 0 <= k < |s| - hi
      ensures IsSpace(s[hi..][k])
    {
      assert s[hi..][k] == front[hi - lo + k];
    }
  }

  lemma TrimEmpty(s: JsString, front: JsString, r: JsString)
    requires |front| <= |s| && front == s[|s| - |front|..]
    requires forall k :: 0 <= k < |s| - |front| ==> IsSpace(s[k])
    requires |r| <= |front| && r == front[..|r|]
    requires |front| > 0 ==> !IsSpace(front[0])
    requires forall k :: |r| <= k < |front| ==> IsSpace(front[k])
    ensures |r| == 0 <==> AllSpace(s)
  {
    var i := |s| - |front|;
    if |r| == 0 {
      assert s == s[..i] + front;
      AllSpaceConcat(s[..i], front);
    } else {
      assert s[i] == front[0] && !IsSpace(s[i]);
    }
  }

  lemma TrimOfTrimmed(s: JsString, front: JsString, r: JsString)
    requires |front| <= |s| && front == s[|s| - |front|..]
    requires forall k :: 0 <= k < |s| - |front| ==> IsSpace(s[k])
    requires |front| > 0 ==> !IsSpace(front[0])
    requires |r| <= |front| && r == front[..|r|]
    requires forall k :: |r| <= k < |front| ==> IsSpace(front[k])
    requires |r| > 0 ==> !IsSpace(r[|r| - 1])
    ensures IsTrimmed(s) ==> r == s
  {
    if IsTrimmed(s) && |s| > 0 {
      assert front == s;
    }
  }

  lemma AllSpaceConcat(a: JsString, b: JsString)
    requires AllSpace(a) && AllSpace(b)
    ensures AllSpace(a + b)
  {
  }

  /** Trimming never introduces a code unit that was not there. */
  lemma TrimKeepsAbsent(s: JsString, c: CodeUnit)
    requires c !in s
    ensures c !in Trim(s)
  {
    var front := TrimStart(s);
    SliceKeepsAbsent(s, |s| - |front|, |s|, c);
    var r := TrimEnd(front);
    SliceKeepsAbsent(front, 0, |r|, c);
    assert Trim(s) == r;
  }

  lemma SliceKeepsAbsent(s: JsString, lo: nat, hi: nat, c: CodeUnit)
    requires lo <= hi <= |s| && c !in s
    ensures c !in s[lo..hi]
  {
    forall k | 0 <= k < hi - lo
      ensures s[lo..hi][k] != c
    {
      assert s[lo..hi][k] == s[lo + k];
    }
  }
}

=== FILE: server.dfy ===
/** The request-decision logic of the zkvote HTTP server, with the HTTP layer
    removed: the voting configuration read at start-up, the reset performed
    when the voter list is loaded, and the guard sequences of `/api/verify`,
    `/api/register-voter`, `/api/zk-vote`, `/api/vote` and `/api/results`.
    Each handler is a pure transition returning the next server state and the
    reply; a refusal carries the failure the handler reports. */
module Server {
  import opened JsText
  import opened Hashing
  import ZkVoteService
  import VoteService

  datatype Server = Server(
    subject: JsString,
    options: seq<JsString>,
    blockMultipleIPVotes: bool,
    useZeroKnowledge: bool,
    validVoters: set<JsString>,
    voted: set<JsString>,
    votedIPs: set<JsString>,
    tally: VoteService.Tally,
    zk: ZkVoteService.Service)

  /** The module-level initial values of the server and its two services. */
  const Initial: Server :=
    Server([], [], false, false, {}, {}, {}, VoteService.Initial, ZkVoteService.Empty)

  /** In plaintext mode the voted set is the key set of the tally and lies within
      the electorate, whose size the tally records; the ZK service keeps its own
      invariant. */
  predicate Inv(s: Server) {
    && s.voted <= s.validVoters
    && s.voted == s.tally.votes.Keys
    && s.tally.totalVoters == |s.validVoters|
    && ZkVoteService.Valid(s.zk)
  }

  // ---------------------------------------------------------------------------
  // Start-up: askVotingConfig and loadVoters

  const LowerY: CodeUnit := 121   // 'y'
  const UpperY: CodeUnit := 89    // 'Y'

  /** `answer.toLowerCase() === 'y'`: the only strings that lower-case to "y". */
  predicate AnswersYes(answer: JsString) {
    answer == [LowerY] || answer == [UpperY]
  }

  /** `.map(o => o.trim())`. */
  function TrimEach(parts: seq<JsString>): (r: seq<JsString>)
    ensures |r| == |parts|
    ensures forall k :: 0 <= k < |r| ==> r[k] == Trim(parts[k])
  {
    seq(|parts|, k requires 0 <= k < |parts| => Trim(parts[k]))
  }

  /** `.filter(o => o.length > 0)`: only non-empty pieces of the input remain;
      `DropEmptyKeepsMultiplicity` and `DropEmptyAppend` say which and in what order. */
  function DropEmpty(parts: seq<JsString>): (r: seq<JsString>)
    ensures forall k :: 0 <= k < |r| ==> |r[k]| > 0 && r[k] in parts
    ensures forall p :: p in parts && |p| > 0 ==> p in r
  {
    if |parts| == 0 then []
    else
      var rest := DropEmpty(parts[1..]);
      if |parts[0]| > 0 then [parts[0]] + rest else rest
  }

  /** The option list: `opts.split(',').map(o => o.trim()).filter(o => o.length > 0)`.
      Every option is non-empty, carries no surrounding white space and no comma. */
  function ParseOptions(raw: JsString): (opts: seq<JsString>)
    ensures forall k :: 0 <= k < |opts| ==> |opts[k]| > 0 && IsTrimmed(opts[k]) && Comma !in opts[k]
  {
    var pieces := Split(raw, Comma);
    TrimEachKeepsAbsent(pieces, Comma);
    DropEmpty(TrimEach(pieces))
  }

  lemma TrimEachKeepsAbsent(parts: seq<JsString>, c: CodeUnit)
    requires forall k :: 0 <= k < |parts| ==> c !in parts[k]
    ensures forall k :: 0 <= k < |parts| ==> c !in TrimEach(parts)[k]
  {
    forall k | 0 <= k < |parts| {
      TrimKeepsAbsent(parts[k], c);
    }
  }

  predicate IsOptionLabel(text: JsString) {
    |text| > 0 && IsTrimmed(text) && Comma !in text
  }

  /** Every non-empty piece is kept as often as it occurs; no empty one is. */
  lemma {:induction false} DropEmptyKeepsMultiplicity(parts: seq<JsString>)
    ensures forall p :: multiset(DropEmpty(parts))[p] == (if |p| > 0 then multiset(parts)[p] else 0)
  {
    if |parts| > 0 {
      DropEmptyKeepsMultiplicity(parts[1..]);
      assert parts == [parts[0]] + parts[1..];
      assert multiset(parts) == multiset{parts[0]} + multiset(parts[1..]);
    }
  }

  /** The filter works piece by piece, so it keeps the order of the pieces. */
  lemma {:induction false} DropEmptyAppend(a: seq<JsString>, b: seq<JsString>)
    ensures DropEmpty(a + b) == DropEmpty(a) + DropEmpty(b)
  {
    if |a| > 0 {
      var ab := a + b;
      assert ab[0] == a[0] && ab[1..] == a[1..] + b;
      DropEmptyAppend(a[1..], b);
      var head: seq<JsString> := if |a[0]| > 0 then [a[0]] else [];
      assert DropEmpty(ab) == head + DropEmpty(ab[1..]);
      assert DropEmpty(a) == head + DropEmpty(a[1..]);
      AppendAssociates(head, DropEmpty(a[1..]), DropEmpty(b));
    } else {
      assert a + b == b;
    }
  }

  lemma TrimEachAppend(a: seq<JsString>, b: seq<JsString>)
    ensures TrimEach(a + b) == TrimEach(a) + TrimEach(b)
  {
  }

  /** Option parsing treats each comma-separated piece on its own: the options
      of `a,b` are those of `a` followed by those of `b`. */
  lemma ParseOptionsAppend(a: JsString, b: JsString)
    ensures ParseOptions(a + [Comma] + b) == ParseOptions(a) + ParseOptions(b)
  {
    SplitAppend(a, b, Comma);
    var x := Split(a, Comma);
    var y := Split(b, Comma);
    TrimEachAppend(x, y);
    DropEmptyAppend(TrimEach(x), TrimEach(y));
  }

  /** A piece without a comma gives no option when it is all white space, and
      otherwise one option: the piece trimmed. */
  lemma ParseOptionsOfPiece(a: JsString)
    requires Comma !in a
    ensures ParseOptions(a) == (if AllSpace(a) then [] else [Trim(a)])
  {
    assert Split(a, Comma) == [a];
    assert TrimEach([a]) == [Trim(a)];
    var t := Trim(a);
    if |t| > 0 {
      assert DropEmpty([t]) == [t] + DropEmpty([]);
    } else {
      assert DropEmpty([t]) == DropEmpty([]);
    }
  }

  lemma TrimEachOfTrimmed(parts: seq<JsString>)
    requires forall k :: 0 <= k < |parts| ==> IsTrimmed(parts[k])
    ensures TrimEach(parts) == parts
  {
  }

  lemma {:induction false} DropEmptyOfNonEmpty(parts: seq<JsString>)
    requires forall k :: 0 <= k < |parts| ==> |parts[k]| > 0
    ensures DropEmpty(parts) == parts
  {
    if |parts| > 0 {
      DropEmptyOfNonEmpty(parts[1..]);
      assert parts == [parts[0]] + parts[1..];
    }
  }

  /** Writing a list of option labels comma-separated and parsing it gives the list back. */
  lemma ParseOptionsRoundTrip(opts: seq<JsString>)
    requires forall k :: 0 <= k < |opts| ==> IsOptionLabel(opts[k])
    ensures ParseOptions(Join(opts, Comma)) == opts
  {
    if |opts| == 0 {
      NoOptionsInEmptyAnswer();
    } else {
      var raw := Join(opts, Comma);
      assert Split(raw, Comma) == opts by {
        assert forall k :: 0 <= k < |opts| ==> Comma !in opts[k];
        SplitJoin(opts, Comma);
      }
      assert TrimEach(opts) == opts by {
        assert forall k :: 0 <= k < |opts| ==> IsTrimmed(opts[k]);
        TrimEachOfTrimmed(opts);
      }
      assert DropEmpty(opts) == opts by {
        assert forall k :: 0 <= k < |opts| ==> |opts[k]| > 0;
        DropEmptyOfNonEmpty(opts);
      }
    }
  }

  /** An empty answer yields no options. */
  lemma NoOptionsInEmptyAnswer()
    ensures ParseOptions([]) == []
  {
    assert Split([], Comma) == [[]];
    assert TrimEach([[]]) == [[]] by {
      assert Trim([]) == [];
    }
    assert DropEmpty([[]]) == [];
  }

  /** Why start-up aborts (`process.exit(1)`). */
  datatype StartError = EmptySubject | TooFewOptions | NoVoterIds

  datatype Configured = ConfigOk(server: Server) | ConfigFailed(error: StartError)

  /** `askVotingConfig` given the three answers: the subject is checked before the
      options; the mode flag is always set to plaintext. */
  function Configure(s: Server, blockAnswer: JsString, subject: JsString, rawOptions: JsString): (r: Configured)
    ensures r.ConfigOk? <==> !AllSpace(subject) && |ParseOptions(rawOptions)| >= 2
    ensures AllSpace(subject) ==> r == ConfigFailed(EmptySubject)
    ensures !AllSpace(subject) && |ParseOptions(rawOptions)| < 2 ==> r == ConfigFailed(TooFewOptions)
    ensures r.ConfigOk? ==>
              && r.server.subject == Trim(subject) && |r.server.subject| > 0
              && r.server.options == ParseOptions(rawOptions)
              && !r.server.useZeroKnowledge
              && (r.server.blockMultipleIPVotes <==> AnswersYes(blockAnswer))
              && r.server.validVoters == s.validVoters && r.server.voted == s.voted
              && r.server.votedIPs == s.votedIPs && r.server.tally == s.tally && r.server.zk == s.zk
  {
    var options := ParseOptions(rawOptions);
    if |Trim(subject)| == 0 then ConfigFailed(EmptySubject)
    else if |options| < 2 then ConfigFailed(TooFewOptions)
    else ConfigOk(s.(subject := Trim(subject), options := options,
                     blockMultipleIPVotes := AnswersYes(blockAnswer), useZeroKnowledge := false))
  }

  datatype Loaded = LoadOk(server: Server) | LoadFailed(error: StartError)

  /** `loadVoters` given the parsed voter list: the electorate becomes the listed
      ids, nobody has voted, and the tally is reset to the number of distinct ids. */
  function LoadVoters(s: Server, ids: seq<JsString>): (r: Loaded)
    ensures r.LoadFailed? <==> |ids| == 0
    ensures r.LoadFailed? ==> r.error == NoVoterIds
    ensures r.LoadOk? ==>
              && (forall v :: v in r.server.validVoters <==> v in ids)
              && r.server.voted == {} && r.server.tally.votes == map[]
              && r.server.tally.totalVoters == |r.server.validVoters|
              && Inv(r.server) == ZkVoteService.Valid(s.zk)
              && r.server.votedIPs == s.votedIPs && r.server.zk == s.zk
              && r.server.options == s.options && r.server.useZeroKnowledge == s.useZeroKnowledge
              && r.server.subject == s.subject && r.server.blockMultipleIPVotes == s.blockMultipleIPVotes
  {
    if |ids| == 0 then LoadFailed(NoVoterIds)
    else
      var valid := set v | v in ids;
      LoadOk(s.(validVoters := valid, voted := {},
                tally := VoteService.SetTotalVoters(s.tally, |valid|)))
  }

  /** After loading, the published results are all zero and `maxVoters` is the
      number of distinct voter ids. */
  lemma LoadVotersResetsResults(s: Server, ids: seq<JsString>)
    requires LoadVoters(s, ids).LoadOk?
    ensures var t := LoadVoters(s, ids).server;
      var r := VoteService.Tabulate(t.tally, t.options);
      && r.total == 0 && r.maxVoters == |t.validVoters|
      && |r.counts| == |t.options| && forall k :: 0 <= k < |r.counts| ==> r.counts[k] == 0
  {
    var t := LoadVoters(s, ids).server;
    VoteService.SetTotalVotersResets(s.tally, |t.validVoters|, t.options);
  }

  datatype Started = Ready(server: Server) | Aborted(error: StartError)

  /** `main`: configure the vote, then load the voter list, from the initial state. */
  function Start(blockAnswer: JsString, subject: JsString, rawOptions: JsString, ids: seq<JsString>): (r: Started)
    ensures r.Ready? <==> !AllSpace(subject) && |ParseOptions(rawOptions)| >= 2 && |ids| > 0
    ensures r.Ready? ==>
              && Inv(r.server) && !r.server.useZeroKnowledge
              && r.server.voted == {} && r.server.votedIPs == {} && r.server.zk == ZkVoteService.Empty
              && |r.server.options| >= 2 && (forall v :: v in r.server.validVoters <==> v in ids)
              && r.server.subject == Trim(subject) && r.server.options == ParseOptions(rawOptions)
              && (r.server.blockMultipleIPVotes <==> AnswersYes(blockAnswer))
  {
    var configured := Configure(Initial, blockAnswer, subject, rawOptions);
    if configured.ConfigFailed? then Aborted(configured.error)
    else
      assert ZkVoteService.Valid(configured.server.zk);
      var loaded := LoadVoters(configured.server, ids);
      if loaded.LoadFailed? then Aborted(loaded.error) else Ready(loaded.server)
  }

  // ---------------------------------------------------------------------------
  // Requests

  datatype Failure =
    | NoVoterId               // 'No voter ID provided'
    | ZkNotEnabled            // 'Zero-knowledge voting not enabled'
    | ZkEnabledUseZkVote      // 'Zero-knowledge voting enabled. Use /api/zk-vote endpoint'
    | IdAndSecretRequired     // 'Voter ID and secret required'
    | IdAndProofRequired      // 'Voter ID and proof required'
    | InvalidVoterId          // 'Invalid voter ID'
    | VoterAlreadyRegistered  // 'Voter already registered'
    | ProofRejected(reason: ZkVoteService.Rejection)
    | InvalidRequestData      // 'Invalid request data'
    | AlreadyVoted            // 'This voter has already voted'
    | SameIpRepeat            // 'Multiple votes from same IP are not allowed'

  datatype Reply =
    | VerifyResult(valid: bool, hasVoted: bool, zkEnabled: bool)
    | VoterRegistered(commitmentHash: JsString, maxOptions: nat)
    | ZkVoteRecorded
    | VoteRecorded
    | PlainResults(options: seq<JsString>, counts: seq<nat>, total: nat, maxVoters: int)
    | ZkResults(totalVotes: nat, registeredVoters: nat, maxVoters: int)
    | Refused(failure: Failure)

  datatype Step = Step(server: Server, reply: Reply)

  /** Every voter registered in `before` is still registered in `after`, with the
      same stored commitment. */
  predicate CommitmentsKept(before: ZkVoteService.Service, after: ZkVoteService.Service) {
    forall v :: v in before.voterCommitments ==>
      v in after.voterCommitments
      && after.voterCommitments[v].commitmentHash == before.voterCommitments[v].commitmentHash
  }

  /** `/api/verify`: eligibility, and whether the voter has voted, read from the
      ZK service in ZK mode and from the voted set otherwise. */
  function ApiVerify(s: Server, voterId: Maybe<JsString>): (r: Reply)
    ensures r.VerifyResult? || r == Refused(NoVoterId)
    ensures r.VerifyResult? <==> Truthy(voterId)
    ensures r.VerifyResult? ==>
              && r.valid == (voterId.value in s.validVoters)
              && r.zkEnabled == s.useZeroKnowledge
              && r.hasVoted == (if s.useZeroKnowledge then ZkVoteService.HasVoterVoted(s.zk, voterId.value)
                                else voterId.value in s.voted)
  {
    if !Truthy(voterId) then Refused(NoVoterId)
    else
      var id := voterId.value;
      VerifyResult(
        id in s.validVoters,
        if s.useZeroKnowledge then ZkVoteService.HasVoterVoted(s.zk, id) else id in s.voted,
        s.useZeroKnowledge)
  }

  /** `/api/register-voter`: ZK mode, both fields, an eligible voter not yet
      registered; then the ZK service stores the commitment. */
  function ApiRegisterVoter(s: Server, voterId: Maybe<JsString>, voterSecret: Maybe<JsString>): (r: Step)
    ensures r.reply.Refused? ==> r.server == s
    ensures r.reply.VoterRegistered? || r.reply.Refused?
    ensures r.reply.VoterRegistered? <==>
              && s.useZeroKnowledge && Truthy(voterId) && Truthy(voterSecret)
              && voterId.value in s.validVoters
              && !ZkVoteService.IsVoterRegistered(s.zk, voterId.value)
    ensures r.reply.VoterRegistered? ==>
              && Truthy(voterId) && Truthy(voterSecret)
              && r.server == s.(zk := r.server.zk)
              && voterId.value in r.server.zk.voterCommitments
              && r.reply.commitmentHash == SimpleHash(voterSecret.value)
              && r.server.zk.voterCommitments[voterId.value].commitmentHash == r.reply.commitmentHash
              && !ZkVoteService.HasVoterVoted(r.server.zk, voterId.value)
              && r.server.zk.voterCommitments.Keys == s.zk.voterCommitments.Keys + {voterId.value}
              && r.server.zk == ZkVoteService.RegisterVoter(s.zk, voterId.value, voterSecret.value).service
    ensures CommitmentsKept(s.zk, r.server.zk)
    ensures Inv(s) ==> Inv(r.server)
  {
    if !s.useZeroKnowledge then Step(s, Refused(ZkNotEnabled))
    else if !Truthy(voterId) || !Truthy(voterSecret) then Step(s, Refused(IdAndSecretRequired))
    else if voterId.value !in s.validVoters then Step(s, Refused(InvalidVoterId))
    else if ZkVoteService.IsVoterRegistered(s.zk, voterId.value) then Step(s, Refused(VoterAlreadyRegistered))
    else
      var registration := ZkVoteService.RegisterVoter(s.zk, voterId.value, voterSecret.value);
      Step(s.(zk := registration.service), VoterRegistered(registration.commitmentHash, |s.options|))
  }

  /** `/api/zk-vote`: ZK mode, both fields and an eligible voter are checked
      before the ZK service verifies the proof. */
  function ApiZkVote(s: Server, voterId: Maybe<JsString>, proof: Maybe<ZkVoteService.ZkProof>,
                     circuit: ZkVoteService.Circuit, now: nat): (r: Step)
    ensures r.reply.Refused? ==> r.server == s
    ensures r.reply.ZkVoteRecorded? || r.reply.Refused?
    ensures !s.useZeroKnowledge ==> r.reply == Refused(ZkNotEnabled)
    ensures s.useZeroKnowledge && Truthy(voterId) && proof.Present? && voterId.value !in s.validVoters ==>
              r.reply == Refused(InvalidVoterId)
    ensures r.reply.ZkVoteRecorded? <==>
              && s.useZeroKnowledge && Truthy(voterId) && proof.Present? && voterId.value in s.validVoters
              && ZkVoteService.VerifyVoteProof(s.zk, proof.value, voterId.value, circuit, now).verdict.Accepted?
    ensures r.reply.ZkVoteRecorded? ==>
              && r.server == s.(zk := r.server.zk)
              && |r.server.zk.encryptedVotes| == |s.zk.encryptedVotes| + 1
    ensures s.zk.usedNullifiers <= r.server.zk.usedNullifiers
    ensures r.server.zk.voterCommitments.Keys == s.zk.voterCommitments.Keys
    ensures s.useZeroKnowledge && Truthy(voterId) && proof.Present? && voterId.value in s.validVoters ==>
              r.server.zk == ZkVoteService.VerifyVoteProof(s.zk, proof.value, voterId.value, circuit, now).service
    ensures CommitmentsKept(s.zk, r.server.zk)
    ensures Inv(s) ==> Inv(r.server)
  {
    if !s.useZeroKnowledge then Step(s, Refused(ZkNotEnabled))
    else if !Truthy(voterId) || proof.Absent? then Step(s, Refused(IdAndProofRequired))
    else if voterId.value !in s.validVoters then Step(s, Refused(InvalidVoterId))
    else
      var verification := ZkVoteService.VerifyVoteProof(s.zk, proof.value, voterId.value, circuit, now);
      match verification.verdict
      case Rejected(reason) => Step(s.(zk := verification.service), Refused(ProofRejected(reason)))
      case Accepted => Step(s.(zk := verification.service), ZkVoteRecorded)
  }

  /** The option guard of `/api/vote`: a JSON number in `[0, options.length)`.
      `Absent` stands for a missing field or a value of another JSON type. */
  predicate OptionInRange(option: Maybe<real>, optionCount: nat) {
    option.Present? && 0.0 <= option.value < optionCount as real
  }

  /** `/api/vote`: plaintext mode, a well-formed request, an eligible voter who
      has not voted, and, when IP blocking is on, an address not seen before. */
  function ApiVote(s: Server, voterId: Maybe<JsString>, option: Maybe<real>, ip: Maybe<JsString>): (r: Step)
    ensures r.reply.Refused? ==> r.server == s
    ensures r.reply.VoteRecorded? || r.reply.Refused?
    ensures s.useZeroKnowledge ==> r.reply == Refused(ZkEnabledUseZkVote)
    ensures r.reply.VoteRecorded? <==>
              && !s.useZeroKnowledge && Truthy(voterId) && OptionInRange(option, |s.options|)
              && voterId.value in s.validVoters && voterId.value !in s.voted
              && !(s.blockMultipleIPVotes && Truthy(ip) && ip.value in s.votedIPs)
    ensures r.reply.VoteRecorded? ==>
              && r.server.voted == s.voted + {voterId.value}
              && r.server.votedIPs == (if s.blockMultipleIPVotes && Truthy(ip) then s.votedIPs + {ip.value} else s.votedIPs)
              && r.server.tally.votes == s.tally.votes[voterId.value := option.value]
              && r.server == s.(voted := r.server.voted, votedIPs := r.server.votedIPs, tally := r.server.tally)
    ensures Inv(s) ==> Inv(r.server)
  {
    if s.useZeroKnowledge then Step(s, Refused(ZkEnabledUseZkVote))
    else if !Truthy(voterId) || !OptionInRange(option, |s.options|) then Step(s, Refused(InvalidRequestData))
    else if voterId.value !in s.validVoters then Step(s, Refused(InvalidVoterId))
    else if voterId.value in s.voted then Step(s, Refused(AlreadyVoted))
    else if s.blockMultipleIPVotes && Truthy(ip) && ip.value in s.votedIPs then Step(s, Refused(SameIpRepeat))
    else
      var id := voterId.value;
      Step(s.(voted := s.voted + {id},
              votedIPs := if s.blockMultipleIPVotes && Truthy(ip) then s.votedIPs + {ip.value} else s.votedIPs,
              tally := VoteService.RegisterVote(s.tally, id, option.value)),
           VoteRecorded)
  }

  /** `/api/results`: ZK statistics in ZK mode, the plaintext tally otherwise. */
  function ApiResults(s: Server): (r: Reply)
    ensures s.useZeroKnowledge ==>
              && r.ZkResults?
              && r.totalVotes == |s.zk.encryptedVotes| && r.registeredVoters == |s.zk.voterCommitments|
              && r.maxVoters == |s.validVoters|
    ensures !s.useZeroKnowledge ==>
              && r.PlainResults? && r.options == s.options && |r.counts| == |s.options|
              && (forall k :: 0 <= k < |r.counts| ==> r.counts[k] == |VoteService.VotersFor(s.tally.votes, k)|)
              && r.total == |s.tally.votes| && r.maxVoters == s.tally.totalVoters
  {
    if s.useZeroKnowledge then
      var stats := ZkVoteService.GetVoteStats(s.zk);
      ZkResults(stats.totalVotes, stats.registeredVoters, |s.validVoters|)
    else
      var results := VoteService.Tabulate(s.tally, s.options);
      PlainResults(s.options, results.counts, results.total, results.maxVoters)
  }

  datatype Request =
    | VerifyRequest(voterId: Maybe<JsString>)
    | RegisterVoterRequest(voterId: Maybe<JsString>, voterSecret: Maybe<JsString>)
    | ZkVoteRequest(voterId: Maybe<JsString>, proof: Maybe<ZkVoteService.ZkProof>,
                    circuit: ZkVoteService.Circuit, now: nat)
    | VoteRequest(voterId: Maybe<JsString>, option: Maybe<real>, ip: Maybe<JsString>)
    | ResultsRequest

  /** One request, handled to completion before the next begins. */
  function Handle(s: Server, req: Request): (r: Step)
    ensures Inv(s) ==> Inv(r.server)
    ensures r.server.useZeroKnowledge == s.useZeroKnowledge
    ensures r.server.validVoters == s.validVoters && r.server.options == s.options
    ensures r.server.blockMultipleIPVotes == s.blockMultipleIPVotes
    ensures s.zk.usedNullifiers <= r.server.zk.usedNullifiers
    ensures s.zk.voterCommitments.Keys <= r.server.zk.voterCommitments.Keys
    ensures CommitmentsKept(s.zk, r.server.zk)
    ensures s.voted <= r.server.voted && s.votedIPs <= r.server.votedIPs
    ensures !s.useZeroKnowledge ==> r.server.zk == s.zk
    ensures s.useZeroKnowledge ==>
              r.server.voted == s.voted && r.server.votedIPs == s.votedIPs && r.server.tally == s.tally
  {
    match req
    case VerifyRequest(voterId) => Step(s, ApiVerify(s, voterId))
    case RegisterVoterRequest(voterId, voterSecret) => ApiRegisterVoter(s, voterId, voterSecret)
    case ZkVoteRequest(voterId, proof, circuit, now) => ApiZkVote(s, voterId, proof, circuit, now)
    case VoteRequest(voterId, option, ip) => ApiVote(s, voterId, option, ip)
    case ResultsRequest => Step(s, ApiResults(s))
  }

  /** A sequence of requests handled one after another. */
  function Run(s: Server, reqs: seq<Request>): (r: Server)
    ensures r.useZeroKnowledge == s.useZeroKnowledge
    ensures r.validVoters == s.validVoters && r.options == s.options
    ensures r.blockMultipleIPVotes == s.blockMultipleIPVotes
    ensures s.voted <= r.voted && s.votedIPs <= r.votedIPs
    decreases |reqs|
  {
    if |reqs| == 0 then s else Run(Handle(s, reqs[0]).server, reqs[1..])
  }

  // ---------------------------------------------------------------------------
  // Properties of the server

  /** Every run of requests keeps the invariant, the configuration and the mode,
      and never forgets a vote, a blocked address or a used nullifier. */
  lemma {:induction false} RunPreservesInvariant(s: Server, reqs: seq<Request>)
    ensures Inv(s) ==> Inv(Run(s, reqs))
    ensures var t := Run(s, reqs);
      && t.useZeroKnowledge == s.useZeroKnowledge
      && t.validVoters == s.validVoters && t.options == s.options
      && t.blockMultipleIPVotes == s.blockMultipleIPVotes
      && s.voted <= t.voted && s.votedIPs <= t.votedIPs
      && s.zk.usedNullifiers <= t.zk.usedNullifiers
      && CommitmentsKept(s.zk, t.zk)
    ensures !s.useZeroKnowledge ==> Run(s, reqs).zk == s.zk
    decreases |reqs|
  {
    if |reqs| > 0 {
      RunPreservesInvariant(Handle(s, reqs[0]).server, reqs[1..]);
    }
  }

  /** A voter registers at most once: after `/api/register-voter` has stored a
      commitment, any further requests keep that commitment, and a second
      registration by the same voter is refused whatever secret it carries. */
  lemma RegisterAtMostOnce(s: Server, id: JsString, secret: JsString, reqs: seq<Request>, secret2: Maybe<JsString>)
    requires ApiRegisterVoter(s, Present(id), Present(secret)).reply.VoterRegistered?
    ensures var t := Run(ApiRegisterVoter(s, Present(id), Present(secret)).server, reqs);
      && id in t.zk.voterCommitments
      && t.zk.voterCommitments[id].commitmentHash == SimpleHash(secret)
      && ApiRegisterVoter(t, Present(id), secret2).reply.Refused?
  {
    var s1 := ApiRegisterVoter(s, Present(id), Present(secret)).server;
    RunPreservesInvariant(s1, reqs);
  }

  /** From the state the server starts in (plaintext mode, empty ZK service, see
      `Start`), the ZK endpoints stay closed for good: after any requests every
      registration or ZK vote is refused and the ZK service stays empty. */
  lemma ZkEndpointsUnreachable(s: Server, reqs: seq<Request>)
    requires Inv(s) && !s.useZeroKnowledge && s.zk == ZkVoteService.Empty
    ensures var t := Run(s, reqs);
      && Inv(t) && !t.useZeroKnowledge && t.zk == ZkVoteService.Empty
      && (forall id, secret :: ApiRegisterVoter(t, id, secret).reply == Refused(ZkNotEnabled))
      && (forall id, proof, circuit, now :: ApiZkVote(t, id, proof, circuit, now).reply == Refused(ZkNotEnabled))
  {
    RunPreservesInvariant(s, reqs);
  }

  /** Once a voter's vote is recorded, every later vote request for that voter is refused. */
  lemma {:induction false} VoteAtMostOnce(s: Server, voterId: JsString, option: Maybe<real>, ip: Maybe<JsString>,
                       reqs: seq<Request>, option2: Maybe<real>, ip2: Maybe<JsString>)
    requires ApiVote(s, Present(voterId), option, ip).reply.VoteRecorded?
    ensures var later := Run(ApiVote(s, Present(voterId), option, ip).server, reqs);
      ApiVote(later, Present(voterId), option2, ip2).reply.Refused?
  {
    RunPreservesInvariant(ApiVote(s, Present(voterId), option, ip).server, reqs);
  }

  /** With IP blocking on, once a vote from an address is recorded, every later
      vote from that address is refused, whoever casts it. */
  lemma {:induction false} OneVotePerAddress(s: Server, voterId: JsString, option: Maybe<real>, ip: JsString,
                           reqs: seq<Request>, voterId2: Maybe<JsString>, option2: Maybe<real>)
    requires s.blockMultipleIPVotes && |ip| > 0
    requires ApiVote(s, Present(voterId), option, Present(ip)).reply.VoteRecorded?
    ensures var later := Run(ApiVote(s, Present(voterId), option, Present(ip)).server, reqs);
      ApiVote(later, voterId2, option2, Present(ip)).reply.Refused?
  {
    RunPreservesInvariant(ApiVote(s, Present(voterId), option, Present(ip)).server, reqs);
  }

  /** A request naming a voter outside the electorate changes nothing. */
  lemma IneligibleChangesNothing(s: Server, req: Request)
    requires !req.ResultsRequest? && req.voterId.Present? && req.voterId.value !in s.validVoters
    ensures Handle(s, req).server == s
    ensures req.VoteRequest? || req.RegisterVoterRequest? || req.ZkVoteRequest? ==> Handle(s, req).reply.Refused?
  {
  }

  /** `/api/verify` reports a recorded plaintext vote. */
  lemma VerifyReflectsVote(s: Server, voterId: JsString, option: Maybe<real>, ip: Maybe<JsString>)
    requires ApiVote(s, Present(voterId), option, ip).reply.VoteRecorded?
    ensures ApiVerify(ApiVote(s, Present(voterId), option, ip).server, Present(voterId))
            == VerifyResult(true, true, false)
  {
  }

  /** In plaintext mode the published total is the number of voters who voted,
      which never exceeds the electorate reported as `maxVoters`; the counts add
      up to at most the total. */
  lemma PlaintextTallyMatchesVoted(s: Server)
    requires Inv(s) && !s.useZeroKnowledge
    ensures var r := ApiResults(s);
      && r.PlainResults? && r.options == s.options && |r.counts| == |s.options|
      && r.total == |s.voted| <= r.maxVoters == |s.validVoters|
      && VoteService.Sum(r.counts) <= r.total
  {
    VoteService.SubsetCardinality(s.voted, s.validVoters);
    VoteService.CountsBoundedByTotal(s.tally, s.options);
  }
}

=== FILE: vote_service.dfy ===
/** The server's plaintext tally (`VoteService`): the electorate size and a
    last-write-wins map from voter id to the option that voter chose.

    The option arrives as a JSON number and is stored as given, so it is a
    `real` here. `getResults` adds one to `counts[option]` only when the option
    lies in `[0, options.length)`. A fractional option in that range passes the
    range test, but JavaScript then sets a non-index property on the array
    instead of an element; it appears in `total` and in no count. */
module VoteService {
  import opened JsText

  datatype Tally = Tally(totalVoters: int, votes: map<JsString, real>)

  datatype Results = Results(counts: seq<nat>, total: nat, maxVoters: int)

  const Initial: Tally := Tally(0, map[])

  /** `setTotalVoters`: record the electorate size and forget every vote. */
  function SetTotalVoters(t: Tally, total: int): (r: Tally)
    ensures r.totalVoters == total
    ensures forall v :: v !in r.votes
  {
    Tally(total, map[])
  }

  /** `clearVotes`: forget every vote, keep the electorate size. */
  function ClearVotes(t: Tally): (r: Tally)
    ensures r.totalVoters == t.totalVoters
    ensures forall v :: v !in r.votes
  {
    t.(votes := map[])
  }

  /** `registerVote`: the voter's entry becomes `option`; nobody else's changes. */
  function RegisterVote(t: Tally, voterId: JsString, option: real): (r: Tally)
    ensures voterId in r.votes && r.votes[voterId] == option
    ensures forall w :: w != voterId ==>
              (w in r.votes <==> w in t.votes) && (w in t.votes ==> r.votes[w] == t.votes[w])
    ensures r.totalVoters == t.totalVoters
  {
    t.(votes := t.votes[voterId := option])
  }

  /** An option that `counts[option]++` turns into an array element increment. */
  predicate Counted(option: real, n: nat) {
    0.0 <= option < n as real && option.Floor as real == option
  }

  /** The voters among `who` whose stored option is `k`. */
  function VotersAmong(votes: map<JsString, real>, who: set<JsString>, k: nat): set<JsString> {
    set v | v in who && v in votes && votes[v] == k as real
  }

  function VotersFor(votes: map<JsString, real>, k: nat): set<JsString> {
    VotersAmong(votes, votes.Keys, k)
  }

  /** The reference count array: entry k is the number of voters who chose option k. */
  function Counts(votes: map<JsString, real>, n: nat): (r: seq<nat>)
    ensures |r| == n
    ensures forall k :: 0 <= k < n ==> r[k] == |VotersFor(votes, k)|
  {
    if n == 0 then [] else Counts(votes, n - 1) + [|VotersFor(votes, n - 1)|]
  }

  /** What `getResults(options)` returns: one count per option, entry k the
      number of voters who chose option k; `total` the number of voters stored;
      `maxVoters` the electorate size. */
  function Tabulate(t: Tally, options: seq<JsString>): (r: Results)
    ensures |r.counts| == |options|
    ensures forall k :: 0 <= k < |options| ==> r.counts[k] == |VotersFor(t.votes, k)|
    ensures r.total == |t.votes.Keys| && r.maxVoters == t.totalVoters
  {
    Results(Counts(t.votes, |options|), |t.votes|, t.totalVoters)
  }

  /** `getResults`: one pass over the stored votes, incrementing the count of
      each in-range option. */
  method GetResults(t: Tally, options: seq<JsString>) returns (r: Results)
    ensures r == Tabulate(t, options)
  {
    var n := |options|;
    var counts: seq<nat> := seq(n, _ => 0);
    var pending := t.votes.Keys;
    ghost var seen: set<JsString> := {};
    while pending != {}
      invariant pending + seen == t.votes.Keys && pending !! seen
      invariant |counts| == n
      invariant forall k :: 0 <= k < n ==> counts[k] == |VotersAmong(t.votes, seen, k)|
      decreases pending
    {
      var v :| v in pending;
      var option := t.votes[v];
      ghost var before := counts;
      if 0.0 <= option < n as real {
        if option.Floor as real == option {
          var k := option.Floor;
          counts := counts[k := counts[k] + 1];
        }
        // A fractional option names a property of the array, not an element.
      }
      assert forall k :: 0 <= k < n ==> counts[k] == before[k] + (if option == k as real then 1 else 0);
      forall k | 0 <= k < n
        ensures counts[k] == |VotersAmong(t.votes, seen + {v}, k)|
      {
        AmongGrows(t.votes, seen, v, k);
      }
      pending := pending - {v};
      seen := seen + {v};
    }
    CountsAgree(t.votes, counts, n);
    r := Results(counts, |t.votes|, t.totalVoters);
  }

  lemma AmongGrows(votes: map<JsString, real>, seen: set<JsString>, v: JsString, k: nat)
    requires v in votes && v !in seen
    ensures |VotersAmong(votes, seen + {v}, k)|
            == |VotersAmong(votes, seen, k)| + (if votes[v] == k as real then 1 else 0)
  {
    if votes[v] == k as real {
      assert VotersAmong(votes, seen + {v}, k) == VotersAmong(votes, seen, k) + {v};
    } else {
      assert VotersAmong(votes, seen + {v}, k) == VotersAmong(votes, seen, k);
    }
  }

  lemma CountsAgree(votes: map<JsString, real>, counts: seq<nat>, n: nat)
    requires |counts| == n
    requires forall k :: 0 <= k < n ==> counts[k] == |VotersAmong(votes, votes.Keys, k)|
    ensures counts == Counts(votes, n)
  {
  }

  // ---------------------------------------------------------------------------
  // Properties of the tally

  function Sum(xs: seq<nat>): nat {
    if |xs| == 0 then 0 else Sum(xs[..|xs| - 1]) + xs[|xs| - 1]
  }

  function CountedVoters(votes: map<JsString, real>, n: nat): set<JsString> {
    set v | v in votes && Counted(votes[v], n)
  }

  /** The counts add up to the number of voters whose option is counted. */
  lemma {:induction false} SumOfCounts(votes: map<JsString, real>, n: nat)
    ensures Sum(Counts(votes, n)) == |CountedVoters(votes, n)|
  {
    if n == 0 {
      assert CountedVoters(votes, 0) == {};
    } else {
      SumOfCounts(votes, n - 1);
      var c := Counts(votes, n);
      assert c[..n - 1] == Counts(votes, n - 1);
      var below := CountedVoters(votes, n - 1);
      var last := VotersFor(votes, n - 1);
      assert CountedVoters(votes, n) == below + last by {
        forall v | v in votes
          ensures Counted(votes[v], n) <==> Counted(votes[v], n - 1) || votes[v] == (n - 1) as real
        {
          var o := votes[v];
          if Counted(o, n) && o != (n - 1) as real {
            assert o.Floor < n - 1;
          }
        }
      }
      assert below !! last;
    }
  }

  lemma SubsetCardinality<T>(a: set<T>, b: set<T>)
    requires a <= b
    ensures |a| <= |b|
    ensures |a| == |b| ==> a == b
  {
    assert b == a + (b - a);
    assert |b| == |a| + |b - a|;
    if |a| == |b| {
      assert |b - a| == 0;
    }
  }

  /** `sum(counts) <= total`, with equality exactly when every stored option is
      an integer index into the option list. */
  lemma CountsBoundedByTotal(t: Tally, options: seq<JsString>)
    ensures Sum(Tabulate(t, options).counts) <= Tabulate(t, options).total
    ensures Sum(Tabulate(t, options).counts) == Tabulate(t, options).total <==>
            forall v :: v in t.votes ==> Counted(t.votes[v], |options|)
  {
    SumOfCounts(t.votes, |options|);
    var counted := CountedVoters(t.votes, |options|);
    SubsetCardinality(counted, t.votes.Keys);
    if forall v :: v in t.votes ==> Counted(t.votes[v], |options|) {
      assert counted == t.votes.Keys;
    }
  }

  /** A fractional option inside the range is stored and adds to `total`, but
      to no entry of `counts`. */
  lemma FractionalOptionUncounted(t: Tally, options: seq<JsString>, voterId: JsString, option: real)
    requires voterId !in t.votes
    requires 0.0 < option < |options| as real && option.Floor as real != option
    ensures var before := Tabulate(t, options);
      var after := Tabulate(RegisterVote(t, voterId, option), options);
      after.total == before.total + 1 && after.counts == before.counts
  {
    var t' := RegisterVote(t, voterId, option);
    assert t'.votes.Keys == t.votes.Keys + {voterId};
    forall k | 0 <= k < |options|
      ensures VotersFor(t'.votes, k) == VotersFor(t.votes, k)
    {
      assert option != k as real;
    }
  }

  /** Registering twice for one voter keeps only the later option. */
  lemma LastWriteWins(t: Tally, voterId: JsString, first: real, second: real)
    ensures RegisterVote(RegisterVote(t, voterId, first), voterId, second) == RegisterVote(t, voterId, second)
  {
  }

  /** Each voter id is counted in `total` once, however often it registers. */
  lemma TotalCountsDistinctVoters(t: Tally, options: seq<JsString>, voterId: JsString, option: real)
    ensures Tabulate(RegisterVote(t, voterId, option), options).total
            == Tabulate(t, options).total + (if voterId in t.votes then 0 else 1)
  {
    var t' := RegisterVote(t, voterId, option);
    assert t'.votes.Keys == t.votes.Keys + {voterId};
  }

  /** After `setTotalVoters(n)` the results are all zero with `maxVoters == n`. */
  lemma SetTotalVotersResets(t: Tally, total: int, options: seq<JsString>)
    ensures var r := Tabulate(SetTotalVoters(t, total), options);
      && r.total == 0 && r.maxVoters == total
      && |r.counts| == |options| && forall k :: 0 <= k < |r.counts| ==> r.counts[k] == 0
  {
  }

  /** After `clearVotes` the results are all zero and `maxVoters` is unchanged. */
  lemma ClearVotesKeepsTotal(t: Tally, options: seq<JsString>)
    ensures var r := Tabulate(ClearVotes(t), options);
      && r.total == 0 && r.maxVoters == Tabulate(t, options).maxVoters
      && |r.counts| == |options| && forall k :: 0 <= k < |r.counts| ==> r.counts[k] == 0
  {
  }
}

=== FILE: zk_vote_service.dfy ===
/** The server's anonymous-ballot bookkeeping (`ZKVoteService`): a registry from
    voter id to commitment record, the set of consumed nullifier hashes, and the
    append-only list of recorded `{commitment, nullifier}` ballots.

    Vote verification has two paths. The circuit path runs its checks in a
    fixed order over the public signals
    `[voteCommitment, nullifierHash, validVote, maxOptions, commitmentHash]`
    and consults the groth16 verifier. The simplified path is taken when the
    verification key file is absent, or when the circuit path throws. Both paths
    record an accepted ballot the same way. Each operation is a pure
    transition from one service value to the next. */
module ZkVoteService {
  import opened JsText
  import opened Hashing

  /** A registered voter's record; `nullifierHash` is set when a ballot is recorded. */
  datatype VoterCommitment = VoterCommitment(
    voterId: JsString,
    commitmentHash: JsString,
    nullifierHash: Maybe<JsString>)

  /** One recorded anonymous ballot. */
  datatype EncryptedVote = EncryptedVote(commitment: JsString, nullifier: JsString)

  datatype Service = Service(
    voterCommitments: map<JsString, VoterCommitment>,
    usedNullifiers: set<JsString>,
    encryptedVotes: seq<EncryptedVote>)

  /** A submitted proof. The groth16 proof object itself is opaque; only the
      verifier reads it, so it is folded into the verifier's answer. */
  datatype ZkProof = ZkProof(publicSignals: seq<JsString>)

  /** What groth16.verify does when called. */
  datatype VerifierAnswer = ProofValid | ProofInvalid | VerifierThrows

  /** The environment of one verification: whether the verification key file
      exists, whether reading and parsing it succeeds, and what the verifier answers. */
  datatype Circuit = KeyMissing | KeyUnreadable | KeyLoaded(answer: VerifierAnswer)

  /** The error strings of a rejected verification. `VoteAlreadyCast` is the
      message of both the used-nullifier check and the simplified path's
      already-voted check. */
  datatype Rejection =
    | VoterNotRegistered   // 'Voter not registered'
    | InvalidCommitment    // 'Invalid voter commitment'
    | VoteAlreadyCast      // 'Vote already cast'
    | InvalidProof         // 'Invalid zero-knowledge proof'
    | InvalidVote          // 'Invalid vote according to circuit'

  datatype Verdict = Accepted | Rejected(error: Rejection)

  datatype Verification = Verification(service: Service, verdict: Verdict)

  datatype Registration = Registration(service: Service, commitmentHash: JsString)

  /** The circuit path either finishes with a verdict or throws into the fallback. */
  datatype CircuitOutcome = Finished(verification: Verification) | Raised

  datatype VoteStats = VoteStats(totalVotes: nat, registeredVoters: nat, encryptedVotes: nat)

  // Positions in the public-signal array.
  const VoteCommitmentAt: nat := 0
  const NullifierHashAt: nat := 1
  const ValidVoteAt: nat := 2
  const MaxOptionsAt: nat := 3
  const CommitmentHashAt: nat := 4

  const Empty: Service := Service(map[], {}, [])

  /** Array destructuring: an index past the end reads as `undefined`. */
  function Signal(p: ZkProof, i: nat): Maybe<JsString> {
    if i < |p.publicSignals| then Present(p.publicSignals[i]) else Absent
  }

  /** Every nullifier the service has handed out, to a voter record or to a
      ballot, is in the consumed set; every record is filed under its own id. */
  predicate Valid(s: Service) {
    && (forall v :: v in s.voterCommitments ==> s.voterCommitments[v].voterId == v)
    && (forall v :: v in s.voterCommitments && s.voterCommitments[v].nullifierHash.Present? ==>
          s.voterCommitments[v].nullifierHash.value in s.usedNullifiers)
    && (forall i :: 0 <= i < |s.encryptedVotes| ==> s.encryptedVotes[i].nullifier in s.usedNullifiers)
  }

  /** `registerVoter`: store a fresh record holding simpleHash(secret), replacing
      any earlier record for the same id. */
  function RegisterVoter(s: Service, voterId: JsString, voterSecret: JsString): (r: Registration)
    ensures voterId in r.service.voterCommitments
    ensures r.commitmentHash == SimpleHash(voterSecret)
    ensures r.service.voterCommitments[voterId].commitmentHash == r.commitmentHash
    ensures IsCanonicalDecimal(r.commitmentHash)
    ensures !HasVoterVoted(r.service, voterId)
    ensures forall w :: w != voterId ==>
              (w in r.service.voterCommitments <==> w in s.voterCommitments) &&
              (w in s.voterCommitments ==> r.service.voterCommitments[w] == s.voterCommitments[w])
    ensures r.service.usedNullifiers == s.usedNullifiers
    ensures r.service.encryptedVotes == s.encryptedVotes
    ensures Valid(s) ==> Valid(r.service)
  {
    var commitmentHash := SimpleHash(voterSecret);
    Registration(
      s.(voterCommitments := s.voterCommitments[voterId := VoterCommitment(voterId, commitmentHash, Absent)]),
      commitmentHash)
  }

  /** `isVoterRegistered`: in a valid service, exactly the voters some stored
      record names. */
  predicate IsVoterRegistered(s: Service, voterId: JsString)
    ensures Valid(s) ==>
              (IsVoterRegistered(s, voterId) <==>
               exists c :: c in s.voterCommitments.Values && c.voterId == voterId)
  {
    voterId in s.voterCommitments
  }

  /** `hasVoterVoted`: the record exists and its nullifier hash is truthy. */
  predicate HasVoterVoted(s: Service, voterId: JsString)
    ensures HasVoterVoted(s, voterId) ==> IsVoterRegistered(s, voterId)
  {
    voterId in s.voterCommitments && Truthy(s.voterCommitments[voterId].nullifierHash)
  }

  /** Only registered voters have voted, and in a valid service a voter who has
      voted holds a consumed nullifier. */
  lemma VotedVoterHoldsConsumedNullifier(s: Service, voterId: JsString)
    requires Valid(s)
    ensures HasVoterVoted(s, voterId) ==>
              && IsVoterRegistered(s, voterId)
              && s.voterCommitments[voterId].nullifierHash.value in s.usedNullifiers
  {
  }

  /** Recording an accepted ballot, shared by both paths: consume the nullifier,
      append the ballot, attach the nullifier to the voter's record. */
  function RecordVote(s: Service, voterId: JsString, voteCommitment: JsString, nullifier: JsString): (r: Service)
    requires voterId in s.voterCommitments
    ensures Valid(s) ==> Valid(r)
  {
    var record := s.voterCommitments[voterId];
    Service(
      s.voterCommitments[voterId := record.(nullifierHash := Present(nullifier))],
      s.usedNullifiers + {nullifier},
      s.encryptedVotes + [EncryptedVote(voteCommitment, nullifier)])
  }

  /** The circuit path of `verifyVoteProof`, run once the verification key has
      been read. */
  function CircuitVerification(s: Service, proof: ZkProof, voterId: JsString, answer: VerifierAnswer): (r: CircuitOutcome)
    ensures r.Raised? <==>
              && answer == VerifierThrows && voterId in s.voterCommitments
              && Signal(proof, CommitmentHashAt) == Present(s.voterCommitments[voterId].commitmentHash)
              && proof.publicSignals[NullifierHashAt] !in s.usedNullifiers
    ensures r.Finished? && r.verification.verdict.Rejected? ==> r.verification.service == s
    ensures r.Finished? && r.verification.verdict.Accepted? ==>
              && answer == ProofValid && voterId in s.voterCommitments
              && Signal(proof, CommitmentHashAt) == Present(s.voterCommitments[voterId].commitmentHash)
              && proof.publicSignals[NullifierHashAt] !in s.usedNullifiers
              && Signal(proof, ValidVoteAt) == Present(One)
              && r.verification.service
                 == RecordVote(s, voterId, proof.publicSignals[VoteCommitmentAt], proof.publicSignals[NullifierHashAt])
  {
    if voterId !in s.voterCommitments then
      Finished(Verification(s, Rejected(VoterNotRegistered)))
    else if Signal(proof, CommitmentHashAt) != Present(s.voterCommitments[voterId].commitmentHash) then
      Finished(Verification(s, Rejected(InvalidCommitment)))
    else
      var signals := proof.publicSignals;
      if signals[NullifierHashAt] in s.usedNullifiers then
        Finished(Verification(s, Rejected(VoteAlreadyCast)))
      else
        match answer
        case VerifierThrows => Raised
        case ProofInvalid => Finished(Verification(s, Rejected(InvalidProof)))
        case ProofValid =>
          if signals[ValidVoteAt] != One then
            Finished(Verification(s, Rejected(InvalidVote)))
          else
            Finished(Verification(
              RecordVote(s, voterId, signals[VoteCommitmentAt], signals[NullifierHashAt]),
              Accepted))
  }

  /** `simplifiedVerification`: checks only registration and the voter's own
      nullifier hash; derives the nullifier from the voter id and the clock
      (`now` is `Date.now()`) and the ballot commitment from the joined signals. */
  function SimplifiedVerification(s: Service, proof: ZkProof, voterId: JsString, now: nat): (r: Verification)
    ensures r.verdict.Accepted? <==> voterId in s.voterCommitments && !HasVoterVoted(s, voterId)
    ensures r.verdict.Rejected? ==> r.service == s
    ensures r.verdict.Accepted? ==>
              r.service == RecordVote(s, voterId, SimpleHash(Concat(proof.publicSignals)),
                                      SimpleHash(voterId + Decimal(now)))
  {
    if voterId !in s.voterCommitments then
      Verification(s, Rejected(VoterNotRegistered))
    else if Truthy(s.voterCommitments[voterId].nullifierHash) then
      Verification(s, Rejected(VoteAlreadyCast))
    else
      var nullifierHash := SimpleHash(voterId + Decimal(now));
      var voteCommitment := SimpleHash(Concat(proof.publicSignals));
      Verification(RecordVote(s, voterId, voteCommitment, nullifierHash), Accepted)
  }

  /** `verifyVoteProof`: the simplified path when the key file is missing or
      unreadable, or when the circuit path throws; the circuit path otherwise.
      A rejection changes nothing; an acceptance appends exactly one ballot,
      consumes its nullifier and attaches it to the voter's record. */
  function VerifyVoteProof(s: Service, proof: ZkProof, voterId: JsString, circuit: Circuit, now: nat): (r: Verification)
    ensures r.verdict.Rejected? ==> r.service == s
    ensures r.verdict.Accepted? ==>
              && voterId in s.voterCommitments
              && |r.service.encryptedVotes| == |s.encryptedVotes| + 1
              && r.service.encryptedVotes[..|s.encryptedVotes|] == s.encryptedVotes
              && var n := r.service.encryptedVotes[|s.encryptedVotes|].nullifier;
                 && r.service.usedNullifiers == s.usedNullifiers + {n}
                 && r.service.voterCommitments ==
                    s.voterCommitments[voterId := s.voterCommitments[voterId].(nullifierHash := Present(n))]
    ensures Valid(s) ==> Valid(r.service)
  {
    match circuit
    case KeyMissing => SimplifiedVerification(s, proof, voterId, now)
    case KeyUnreadable => SimplifiedVerification(s, proof, voterId, now)
    case KeyLoaded(answer) =>
      match CircuitVerification(s, proof, voterId, answer)
      case Finished(v) => v
      case Raised => SimplifiedVerification(s, proof, voterId, now)
  }

  /** `getVoteStats`. */
  function GetVoteStats(s: Service): (r: VoteStats)
    ensures r.totalVotes == r.encryptedVotes == |s.encryptedVotes|
    ensures r.registeredVoters == |s.voterCommitments.Keys|
  {
    VoteStats(|s.encryptedVotes|, |s.voterCommitments|, |s.encryptedVotes|)
  }

  /** `clearVotes`: forget every ballot and nullifier, keep every registration. */
  function ClearVotes(s: Service): (r: Service)
    ensures r.usedNullifiers == {} && r.encryptedVotes == []
    ensures r.voterCommitments.Keys == s.voterCommitments.Keys
    ensures forall v :: v in s.voterCommitments ==>
              r.voterCommitments[v].commitmentHash == s.voterCommitments[v].commitmentHash &&
              r.voterCommitments[v].voterId == s.voterCommitments[v].voterId
    ensures forall v :: !HasVoterVoted(r, v)
    ensures Valid(s) ==> Valid(r)
  {
    Service(
      map v | v in s.voterCommitments :: s.voterCommitments[v].(nullifierHash := Absent),
      {},
      [])
  }

  /** `getEncryptedVotes`: a copy of the stored ballots, in order, as long as the
      vote count reports. */
  function GetEncryptedVotes(s: Service): (r: seq<EncryptedVote>)
    ensures r == s.encryptedVotes
    ensures |r| == GetVoteStats(s).totalVotes
    ensures Valid(s) ==> forall i :: 0 <= i < |r| ==> r[i].nullifier in s.usedNullifiers
  {
    s.encryptedVotes
  }

  // ---------------------------------------------------------------------------
  // Properties of verification

  /** The circuit path, when the verifier does not throw, accepts exactly when
      all five checks pass, and then records the ballot named by the signals. */
  lemma CircuitAcceptsIff(s: Service, proof: ZkProof, voterId: JsString, answer: VerifierAnswer, now: nat)
    requires answer != VerifierThrows
    ensures var r := VerifyVoteProof(s, proof, voterId, KeyLoaded(answer), now);
      && (r.verdict.Accepted? <==>
            && voterId in s.voterCommitments
            && Signal(proof, CommitmentHashAt) == Present(s.voterCommitments[voterId].commitmentHash)
            && Signal(proof, NullifierHashAt).value !in s.usedNullifiers
            && answer == ProofValid
            && Signal(proof, ValidVoteAt) == Present(One))
      && (r.verdict.Accepted? ==>
            r.service.encryptedVotes == s.encryptedVotes +
              [EncryptedVote(proof.publicSignals[VoteCommitmentAt], proof.publicSignals[NullifierHashAt])])
  {
  }

  /** The circuit path reports the first check that fails, in the order
      registration, commitment, nullifier reuse, proof, validity flag. Reuse is
      detected before the verifier runs, so a replay never reaches the fallback. */
  lemma CircuitChecksInOrder(s: Service, proof: ZkProof, voterId: JsString, answer: VerifierAnswer, now: nat)
    ensures var r := VerifyVoteProof(s, proof, voterId, KeyLoaded(answer), now);
      && (voterId !in s.voterCommitments ==> r.verdict == Rejected(VoterNotRegistered))
      && (voterId in s.voterCommitments
          && Signal(proof, CommitmentHashAt) != Present(s.voterCommitments[voterId].commitmentHash) ==>
            r.verdict == Rejected(InvalidCommitment))
      && (voterId in s.voterCommitments
          && Signal(proof, CommitmentHashAt) == Present(s.voterCommitments[voterId].commitmentHash)
          && proof.publicSignals[NullifierHashAt] in s.usedNullifiers ==>
            r.verdict == Rejected(VoteAlreadyCast))
      && (voterId in s.voterCommitments
          && Signal(proof, CommitmentHashAt) == Present(s.voterCommitments[voterId].commitmentHash)
          && proof.publicSignals[NullifierHashAt] !in s.usedNullifiers
          && answer == ProofInvalid ==>
            r.verdict == Rejected(InvalidProof))
      && (voterId in s.voterCommitments
          && Signal(proof, CommitmentHashAt) == Present(s.voterCommitments[voterId].commitmentHash)
          && proof.publicSignals[NullifierHashAt] !in s.usedNullifiers
          && answer == ProofValid && proof.publicSignals[ValidVoteAt] != One ==>
            r.verdict == Rejected(InvalidVote))
  {
  }

  /** With the key loaded, a proof whose nullifier hash is already consumed is
      rejected and changes nothing, whatever the voter and the verifier. */
  lemma ReplayRejected(s: Service, proof: ZkProof, voterId: JsString, answer: VerifierAnswer, now: nat)
    requires Signal(proof, NullifierHashAt).Present?
    requires Signal(proof, NullifierHashAt).value in s.usedNullifiers
    ensures VerifyVoteProof(s, proof, voterId, KeyLoaded(answer), now).verdict.Rejected?
    ensures VerifyVoteProof(s, proof, voterId, KeyLoaded(answer), now).service == s
  {
  }

  /** A nullifier accepted once is refused by every later circuit-path
      submission carrying it, by any voter, with any verifier answer: `t` is any
      later state, which keeps the nullifiers consumed after the acceptance
      because verification never releases one (`VerificationIsMonotone`). */
  lemma NullifierSingleUse(s: Service, proof: ZkProof, voterId: JsString, circuit: Circuit, now: nat,
                           t: Service, proof2: ZkProof, voterId2: JsString, answer2: VerifierAnswer, now2: nat)
    requires VerifyVoteProof(s, proof, voterId, circuit, now).verdict.Accepted?
    requires VerifyVoteProof(s, proof, voterId, circuit, now).service.usedNullifiers <= t.usedNullifiers
    requires var s1 := VerifyVoteProof(s, proof, voterId, circuit, now).service;
      Signal(proof2, NullifierHashAt) == Present(s1.encryptedVotes[|s.encryptedVotes|].nullifier)
    ensures var r2 := VerifyVoteProof(t, proof2, voterId2, KeyLoaded(answer2), now2);
      r2.verdict.Rejected? && r2.service == t
  {
    var s1 := VerifyVoteProof(s, proof, voterId, circuit, now).service;
    assert s1.encryptedVotes[|s.encryptedVotes|].nullifier in t.usedNullifiers;
    ReplayRejected(t, proof2, voterId2, answer2, now2);
  }

  /** `hasVoterVoted` tests the stored nullifier hash for truthiness, so a
      circuit-path ballot whose nullifier signal is the empty string is
      accepted and recorded while the voter still counts as not having voted. */
  lemma EmptyNullifierLeavesVoterUnmarked(s: Service, proof: ZkProof, voterId: JsString, now: nat)
    requires voterId in s.voterCommitments
    requires Signal(proof, CommitmentHashAt) == Present(s.voterCommitments[voterId].commitmentHash)
    requires proof.publicSignals[NullifierHashAt] == []
    requires [] !in s.usedNullifiers
    requires proof.publicSignals[ValidVoteAt] == One
    ensures var r := VerifyVoteProof(s, proof, voterId, KeyLoaded(ProofValid), now);
      && r.verdict == Accepted
      && |r.service.encryptedVotes| == |s.encryptedVotes| + 1
      && !HasVoterVoted(r.service, voterId)
  {
  }

  /** The circuit path never looks at the voter's recorded nullifier hash: a
      voter who has already voted is accepted again with a fresh nullifier. */
  lemma CircuitAcceptsVoterWhoVoted(s: Service, proof: ZkProof, voterId: JsString, now: nat)
    requires HasVoterVoted(s, voterId)
    requires Signal(proof, CommitmentHashAt) == Present(s.voterCommitments[voterId].commitmentHash)
    requires proof.publicSignals[NullifierHashAt] !in s.usedNullifiers
    requires proof.publicSignals[ValidVoteAt] == One
    ensures VerifyVoteProof(s, proof, voterId, KeyLoaded(ProofValid), now).verdict == Accepted
    ensures |VerifyVoteProof(s, proof, voterId, KeyLoaded(ProofValid), now).service.encryptedVotes|
            == |s.encryptedVotes| + 1
  {
  }

  /** The simplified path derives its nullifier from the voter id and the clock
      and never checks it against the consumed set: when that hash is already
      consumed by an earlier ballot (another voter's id and time can spell the
      same string, "x1" at 1 and "x" at 11, or the 32-bit hash can collide), the
      ballot is still accepted, and two ballots then carry one nullifier. */
  lemma SimplifiedMayReuseNullifier(s: Service, proof: ZkProof, voterId: JsString, now: nat, i: nat)
    requires voterId in s.voterCommitments && !HasVoterVoted(s, voterId)
    requires i < |s.encryptedVotes| && s.encryptedVotes[i].nullifier == SimpleHash(voterId + Decimal(now))
    ensures var r := VerifyVoteProof(s, proof, voterId, KeyMissing, now);
      && r.verdict == Accepted
      && |r.service.encryptedVotes| == |s.encryptedVotes| + 1
      && r.service.encryptedVotes[i].nullifier == r.service.encryptedVotes[|s.encryptedVotes|].nullifier
      && (Valid(s) ==> r.service.usedNullifiers == s.usedNullifiers)
  {
    var n := SimpleHash(voterId + Decimal(now));
    var c := SimpleHash(Concat(proof.publicSignals));
    var r := VerifyVoteProof(s, proof, voterId, KeyMissing, now);
    assert r.verdict == Accepted && r.service == RecordVote(s, voterId, c, n) by {
      KeyProblemsUseSimplified(s, proof, voterId, now);
    }
    assert r.service.encryptedVotes == s.encryptedVotes + [EncryptedVote(c, n)];
    assert r.service.usedNullifiers == s.usedNullifiers + {n};
    if Valid(s) {
      assert n in s.usedNullifiers;
    }
  }

  /** A missing or unreadable key file selects the simplified path. */
  lemma KeyProblemsUseSimplified(s: Service, proof: ZkProof, voterId: JsString, now: nat)
    ensures VerifyVoteProof(s, proof, voterId, KeyMissing, now) == SimplifiedVerification(s, proof, voterId, now)
    ensures VerifyVoteProof(s, proof, voterId, KeyUnreadable, now) == SimplifiedVerification(s, proof, voterId, now)
  {
  }

  /** A verifier that throws hands the request, with the state untouched, to
      the simplified path. */
  lemma ThrowFallsBackToSimplified(s: Service, proof: ZkProof, voterId: JsString, now: nat)
    requires voterId in s.voterCommitments
    requires Signal(proof, CommitmentHashAt) == Present(s.voterCommitments[voterId].commitmentHash)
    requires proof.publicSignals[NullifierHashAt] !in s.usedNullifiers
    ensures VerifyVoteProof(s, proof, voterId, KeyLoaded(VerifierThrows), now)
            == SimplifiedVerification(s, proof, voterId, now)
  {
  }

  /** The simplified path accepts a registered voter who has not voted, marks
      them as voted, and refuses any further simplified submission by them. */
  lemma SimplifiedOncePerVoter(s: Service, proof: ZkProof, voterId: JsString, now: nat, proof2: ZkProof, now2: nat)
    requires voterId in s.voterCommitments && !HasVoterVoted(s, voterId)
    ensures var r := SimplifiedVerification(s, proof, voterId, now);
      && r.verdict == Accepted
      && HasVoterVoted(r.service, voterId)
      && SimplifiedVerification(r.service, proof2, voterId, now2) == Verification(r.service, Rejected(VoteAlreadyCast))
  {
    var n := SimpleHash(voterId + Decimal(now));
    assert |n| > 0;
  }

  /** The simplified path refuses unregistered voters and voters who have voted. */
  lemma SimplifiedRejects(s: Service, proof: ZkProof, voterId: JsString, now: nat)
    ensures voterId !in s.voterCommitments ==>
              SimplifiedVerification(s, proof, voterId, now) == Verification(s, Rejected(VoterNotRegistered))
    ensures HasVoterVoted(s, voterId) ==>
              SimplifiedVerification(s, proof, voterId, now) == Verification(s, Rejected(VoteAlreadyCast))
  {
  }

  /** Verification never releases a consumed nullifier, never drops a
      registration, and never changes a stored commitment. */
  lemma VerificationIsMonotone(s: Service, proof: ZkProof, voterId: JsString, circuit: Circuit, now: nat)
    ensures var r := VerifyVoteProof(s, proof, voterId, circuit, now).service;
      && s.usedNullifiers <= r.usedNullifiers
      && r.voterCommitments.Keys == s.voterCommitments.Keys
      && (forall v :: v in s.voterCommitments ==>
            r.voterCommitments[v].commitmentHash == s.voterCommitments[v].commitmentHash)
  {
  }

  /** The statistics count exactly the accepted ballots and the registered voters. */
  lemma StatsCountBallotsAndVoters(s: Service, proof: ZkProof, voterId: JsString, circuit: Circuit, now: nat, secret: JsString)
    ensures var r := VerifyVoteProof(s, proof, voterId, circuit, now);
      && GetVoteStats(r.service).totalVotes == GetVoteStats(s).totalVotes + (if r.verdict.Accepted? then 1 else 0)
      && GetVoteStats(r.service).registeredVoters == GetVoteStats(s).registeredVoters
    ensures var r := RegisterVoter(s, voterId, secret).service;
      && GetVoteStats(r).totalVotes == GetVoteStats(s).totalVotes
      && GetVoteStats(r).registeredVoters
         == GetVoteStats(s).registeredVoters + (if voterId in s.voterCommitments then 0 else 1)
  {
    var r := VerifyVoteProof(s, proof, voterId, circuit, now);
    if r.verdict.Accepted? {
      assert r.service.voterCommitments.Keys == s.voterCommitments.Keys;
    }
    var reg := RegisterVoter(s, voterId, secret).service;
    assert reg.voterCommitments.Keys == s.voterCommitments.Keys + {voterId};
  }

  /** Registering again replaces the record: the commitment is that of the new
      secret and the earlier ballot's nullifier is no longer attached, although
      it stays consumed. */
  lemma ReRegistrationResetsVoter(s: Service, voterId: JsString, secret: JsString)
    requires Valid(s) && HasVoterVoted(s, voterId)
    ensures var r := RegisterVoter(s, voterId, secret);
      && !HasVoterVoted(r.service, voterId)
      && r.service.voterCommitments[voterId].nullifierHash == Absent
      && r.service.voterCommitments[voterId].commitmentHash == SimpleHash(secret)
      && s.voterCommitments[voterId].nullifierHash.value in r.service.usedNullifiers
  {
  }
}
